=== FILE: README.md ===
# docs-to-md: docstring extraction and rendering, in Dafny

docs-to-md turns the docstrings of a Python file into Markdown. Its core ships
twice: as the package module `docs2md/docs2md.py` and as the standalone script
`doc2md.py`. Both copies run the same three stages:

1. `parse_docstrings` walks the parsed tree. It yields a record
   `(kind, name, lineno, body)` for every module, class, function and async
   function. Through `get_imports`, it also yields a record for every
   `import` and `from … import`, and may write `├name` lines to an import log.
2. `yield_docstrings` sorts the records by line number. It then cuts them with
   `itertools.groupby` into runs of adjacent records sharing a heading from
   the `_NODE_TYPES` table.
3. `yield_docstrings` renders every record as a heading chunk followed by a
   body chunk.

The two copies differ in three places:

| | package (`Copy.Package`) | script (`Copy.Script`) |
|---|---|---|
| anchor line | a function anchors at its first body statement | any declaration whose body starts with a string anchors at that statement's line minus the string's line count |
| signature slice | stops before the anchor line | includes the anchor line |
| imports | one `## Imports\n` section, then `* name` items | `\nImports 'name'` per import |

The model keeps both copies as one definition parameterised by `Copy`.

Modules, following the program's structure:

- `Wrappers`: `Option`.
- `PyStr`: the Python string and sequence operations the core relies on.
  - `str.splitlines` and `sep.join`.
  - `str.split` on one character, which the core never calls. It is there only as the inverse of `','.join`, to show that a plain import's name loses nothing.
  - Decimal printing of `int`.
  - Slicing `xs[a:b]` with negative indices and clamping.
- `PyAst`: the parts of a walked `ast` node that the core reads.
- `Records`: the output record and the three heading tables.
- `Imports`: `get_imports`.
- `Extract`: `parse_docstrings`. The model also gives reference views of its
  result (declarations, imports, import-log lines) and lemmas that tie the
  result to the walk.
- `Sorting`: `sorted(..., key=lineno)` as a stable insertion sort on the line
  number alone.
- `Grouping`: `itertools.groupby`, as maximal runs of adjacent records with
  equal heading.
- `Render`: a reference definition of the chunks yielded for a sorted record
  sequence, and the shape of the output.
- `Docs2Md`: `yield_docstrings` itself. It is written as the generator loop
  (group, then an inner loop per run, keeping the `first_import` flag), and
  proved to yield exactly the reference rendering.

The parser and the libraries are parameters:

- `ast.walk(ast.parse(source))` is an input sequence of nodes, in walk order.
- The source text is an input, split into lines with the modelled `splitlines`.
- `inspect.cleandoc`, applied by `ast.get_docstring(clean=True)`, and
  `textwrap.dedent` are uninterpreted functions in the `Library` value.
- The import log is `Option<seq<string>>`. `None` means no file was given;
  otherwise the log is the lines written so far.
- The module name that the file-reading branch would derive from the file
  name is passed in as `moduleName`.

## Model

| member | source | states |
|---|---|---|
| `Records.KindInTables` | docs2md/docs2md.py:19-35 | Every node kind has a heading. The declare table holds exactly the non-import kinds, and the function table exactly the two function kinds. |
| `Records.TablesNest` | docs2md/docs2md.py:23-35 | The tables nest as their `**` spreads say. The function table's keys lie in the declare table and the declare table's in the node table, with the same headings. |
| `Records.ClassifyByTables` | docs2md/docs2md.py:157-162 | A node counts as a declaration exactly when its type is a key of the declare table, as a function exactly when its type is a key of the function table, and as an import exactly when its type is one of the two import kinds. These are the `isinstance(n, tuple(...))` tests. |
| `Records.HeadingIsTableEntry` | docs2md/docs2md.py:70-72 | The grouping key of a kind is its `_NODE_TYPES` entry, and for a declaration its `_DECLARE_TYPES` entry. |
| `Records.HeadingValues` | doc2md.py:24-40 | The exact heading string of each kind. The class heading carries a leading newline, and both import kinds read `\nImports`. |
| `Records.HeadingShared` | docs2md/docs2md.py:31-35 | Two kinds share a heading exactly when they are equal or both imports. |
| `PyStr.SplitLines` | docs2md/docs2md.py:155 | `str.splitlines`: no returned line contains a line boundary. There are no lines exactly for the empty string. |
| `PyStr.SplitLinesAtBreak` | docs2md/docs2md.py:155 | Any boundary character of `str.splitlines` (`\n`, `\r`, `\v`, `\f`, `\x1c`-`\x1e`, `\x85`, U+2028, U+2029) ends the line before it. The rest is split on its own. The exception is a `\r` followed by `\n`. |
| `PyStr.SplitLinesAtCrLf` | docs2md/docs2md.py:155 | `\r\n` is one boundary: the line before it, then the lines of the rest, with no empty line between. |
| `PyStr.SplitLinesJoinRoundTrip` | doc2md.py:155 | For `\n`-only text, joining the lines with `\n` gives the source back, apart from one final newline. |
| `PyStr.JoinSplitLinesRoundTrip` | doc2md.py:171-172 | Lines without boundaries, the last non-empty, joined with `\n` split back into the same lines. So `len(s.splitlines())` counts a docstring's lines. |
| `PyStr.SplitJoinRoundTrip` | docs2md/docs2md.py:209 | `','.join` of comma-free names is undone by splitting on `,`. |
| `PyStr.IntToStringRoundTrip` | docs2md/docs2md.py:87 | The decimal form of a line number in an f-string reads back as that number, sign included. |
| `PyStr.PySliceAdjacent` | docs2md/docs2md.py:171-174 | Python slicing: `xs[a:b] + xs[b:c] == xs[a:c]` for ordered in-range bounds. |
| `PyStr.PySliceNegativeStop` | doc2md.py:178-181 | A negative stop counts from the end of the list, as Python reads it. |
| `Imports.GetImports` | docs2md/docs2md.py:203-215 | A record exactly for import nodes: from-module or `?`, or the comma-joined aliases, on line 0 with an empty body. One `├name\n` log line per import, and the log is unchanged otherwise. |
| `Imports.FromImportName` | doc2md.py:212-214 | `node.module or '?'`: the module itself when it is non-empty, otherwise `?`. |
| `Imports.PlainImportNameSplits` | doc2md.py:215-217 | The plain-import name determines the imported aliases: splitting it on `,` gives them back. |
| `Imports.DoctestImports` | docs2md/docs2md.py:142-145 | The four documented import records: `whatever`, `aze.aze.aze`, `os` and `sys`, each on line 0 with an empty body. The log gains one `├name` line per import, and a non-import leaves it alone. |
| `Extract.Docstring` | docs2md/docs2md.py:159-160 | `ast.get_docstring(node, clean=True)` is present exactly when the first body statement is a string expression. It is then that string passed through `cleandoc`. |
| `Extract.DocText` | doc2md.py:159-160 | A non-empty docstring is used as it is. A missing or empty docstring gives the `**UNDOCUMENTED**` sentinel, so the text is never empty. |
| `Extract.DeclRecord` | docs2md/docs2md.py:157-180 | A declaration yields a record of its own kind on the anchor line. It carries the node's name, and is unnamed exactly for a module. A function's body is the dedented signature lines, joined by newlines, in a fenced `python` block, followed by its docstring text. Any other body is the docstring text. |
| `Extract.AnchorRules` | doc2md.py:161-172 | Script copy: a string-led declaration's anchor plus the string's line count is the string's line. Otherwise it is the node's own line. Package copy: functions anchor at the first body line. Classes anchor at their own line whether or not they have a docstring, and modules at 0. |
| `Extract.SignatureIsHeader` | docs2md/docs2md.py:162-174 | In each copy the quoted signature is exactly the function's header, from the `def` line through its last line. The package copy anchors at the first body statement: one line past the header, or the `def` line itself for a one-line function, which quotes just that line. The script copy anchors at the header's last line. Each holds under the line numbering its doctests use. |
| `Extract.DeclRecordQuotesHeader` | doc2md.py:161-187 | Under the same conditions, a function's record is named after the function. Its body is its header, dedented, in a fenced `python` block, followed by its docstring text. |
| `Extract.ScriptSignatureUniform` | doc2md.py:178-181 | In the script copy both branches of the signature slice are `lines[decl-1:anchor]`. |
| `Extract.PackageSignatureIsHeader` | docs2md/docs2md.py:171-174 | In the package copy, a first body line after the def line gives the signature as exactly the header lines from the def up to the body. |
| `Extract.ScriptSignatureOneMoreLine` | doc2md.py:181 | For the same anchor, the script copy quotes the package copy's signature plus the anchor line. |
| `Extract.ScriptNegativeAnchor` | doc2md.py:171-181 | A negative script anchor is read from the end of the file, so the quoted signature runs on past the header. |
| `Extract.CopiesOnSimpleFunction` | docs2md/docs2md.py:170-174 | A one-line def with a one-line docstring: both copies quote the def line and give the same body. The package copy reports the docstring's line and the script copy the def line. |
| `Extract.DoctestAnchors` | docs2md/docs2md.py:140-150 | The documented line numbers of both copies, for the example walk: 0, 12, 24, 26, 30, 35 and 0, 11, 23, 26, 29, 34. |
| `Extract.WalkKinds` | docs2md/docs2md.py:156-181 | Each module, class, function, async function or import node yields exactly one record of its kind, and other nodes none, in walk order. |
| `Extract.WalkDeclarations` | doc2md.py:156-187 | The declaration records are exactly the declaration nodes' records, in walk order. |
| `Extract.WalkImports` | docs2md/docs2md.py:181 | The import records are exactly the import nodes' records, in walk order. |
| `Extract.WalkSink` | doc2md.py:188 | The log gets exactly one line per import node, in walk order, and nothing without a log. |
| `Sorting.Insert` | docs2md/docs2md.py:67-69 | Inserting into a line-sorted sequence keeps it sorted and adds exactly the record. |
| `Sorting.SortByLine` | doc2md.py:72-74 | The result is sorted by line and is a permutation of the records. |
| `Sorting.InsertOnLine` | docs2md/docs2md.py:68-69 | Insertion places the record before the equal-line records and leaves every other line's order alone. Inserting from the back this way keeps the sort stable. |
| `Sorting.SortStable` | docs2md/docs2md.py:67 | Stability: the records on each line keep their walk order. |
| `Sorting.SortedUnique` | doc2md.py:72 | Two line-sorted sequences with the same records on every line, in the same order, are equal. |
| `Sorting.SortByLineCharacterised` | doc2md.py:73-74 | The sort's result is the only line-sorted sequence that keeps each line's records in walk order. |
| `Grouping.GroupBy` | docs2md/docs2md.py:70-72 | The runs concatenate back to the sorted records. They are non-empty and single-keyed, and neighbouring runs have different keys. |
| `Grouping.GroupByUnique` | doc2md.py:75-77 | Any cut into non-empty, single-keyed, maximal runs is the one `groupby` makes. |
| `Grouping.ImportsCanSplit` | docs2md/docs2md.py:71 | A kind is not confined to one run: two imports around a class on the same line form two import runs. |
| `Render.DisplayName` | docs2md/docs2md.py:78 | `name if name else module`: a missing or empty name gives the module name. |
| `Render.BodyText` | docs2md/docs2md.py:88 | The body chunk is the record's text followed by one newline. So it is never empty, and the `or '\n'` fallback never applies. |
| `Render.FirstImport` | docs2md/docs2md.py:82-84 | Where the first import record sits: nothing before it is an import. |
| `Render.RenderedLength` | docs2md/docs2md.py:74-88 | Two chunks per record, plus one in the package copy when some record is an import. |
| `Render.RenderedLayout` | doc2md.py:79-88 | Record `i`'s heading is at `2*i`, one later once the section heading has gone out, with its body right after. |
| `Render.ImportsSectionPlacement` | docs2md/docs2md.py:82-84 | The `## Imports` chunk is at a position exactly when the copy is the package, some record is an import, and the position is that of the first import. |
| `Render.ImportsSectionCount` | docs2md/docs2md.py:74-84 | `## Imports` is yielded once in the package copy when there is an import, and otherwise never. |
| `Render.ImportsSectionThenBullet` | docs2md/docs2md.py:81-85 | The section heading is followed at once by the first import's `* name` chunk. |
| `Render.HeadingsByKind` | doc2md.py:82-87 | The exact heading chunk for each kind, in each copy. |
| `Render.LineTextRoundTrip` | doc2md.py:87 | `lineno or '?'` is `?` exactly for line 0; otherwise it reads back as the line. |
| `Render.HeadingIsNotSection` | docs2md/docs2md.py:79-87 | No record heading can be mistaken for the section heading. |
| `Docs2Md.HasImportPermutation` | docs2md/docs2md.py:67-69 | Sorting neither creates nor removes imports, so the section decision is the same before and after it. |
| `Docs2Md.OutputLength` | docs2md/docs2md.py:66-88 | From source to chunks: two per classified node, plus one in the package copy exactly when the walk met an import. |
| `Docs2Md.GeneratorStep` | docs2md/docs2md.py:80-88 | The generator's flag test decides the section heading as the reference rendering does, and appends the record's two chunks. |
| `Docs2Md.EmitRun` | doc2md.py:80-88 | The inner loop over one run extends the chunks by exactly the reference rendering of its records, and keeps the flag. |
| `Docs2Md.Generate` | docs2md/docs2md.py:70-88 | The `groupby` loop with the `first_import` flag yields exactly the reference rendering of the sorted records. |
| `Docs2Md.YieldDocstrings` | docs2md/docs2md.py:38-88 | `yield_docstrings` yields the rendering of the line-sorted extracted records and leaves the import log as extraction left it. The chunk count is exact. |

## Left out

- The command-line layers are I/O and argument handling: `docs2md/__main__.py`, and `main` and `_make_path_sane` in `doc2md.py`.
- The file-reading branch of `yield_docstrings` reads a file object the caller opened and takes the module name from the file's name with `os.path`. The module name it would derive is the `moduleName` parameter.
- Python parsing is outside the model: `ast.parse`, `ast.walk` and `ast.get_docstring`'s cleaning. The walk is an input node sequence, and cleaning and `textwrap.dedent` are uninterpreted functions. Source that does not parse is outside the model's domain.
- Python version: where a multi-line string statement's `lineno` falls differs between 3.7 (last line) and 3.8 or later (first line). Line numbers are inputs, so the model fixes neither. The two copies' own examples were produced under different conventions.
- `Extract.SignatureIsHeader`: the script-copy case asks that the docstring literal span exactly as many lines as `splitlines()` of its value. A literal whose value ends in a bare newline (closing quotes at column 0) spans one line more. The script copy then quotes the docstring's first line as well, and the lemma says nothing about that case.
- `Docs2Md.YieldDocstrings`: generator laziness is not modelled. The chunks are a finite sequence. In Python nothing is written to the import log until the first chunk is requested. Then `sorted` consumes the whole extraction, so every write happens before that chunk is yielded. The model returns the log after all writes, which is the same final content.
- Ordering by category first, then line number, is not modelled, because the code does not do it. Both copies sort on the line number alone, as their docstrings say, and group only adjacent records. So a kind can come back in a later group (`Grouping.ImportsCanSplit`), and the model follows the code.
- `Extract.AnchorRules`: the docstrings of both copies (docs2md/docs2md.py:51-52 and 97-98, doc2md.py:56-57 and 97-98) say the line number is the docstring's first line. Neither copy computes that. The package copy keeps the `class` line for a class and 0 for a module. The script copy anchors a function at the line before its docstring. Both copies' doctests expect what the code computes, so the model follows the code and does not promise the documented meaning.
- `Extract.DocText`: the same docstrings (docs2md/docs2md.py:99, doc2md.py:99) say the docstring is None when there is none. The code yields `**UNDOCUMENTED**` instead, and the model follows the code.
- Class headings keep the leading newline of `'\n## Class'`, as in the code's table.
- `setup.py` is packaging metadata only.

=== FILE: docs2md.dfy ===
/**
  `yield_docstrings(source, module, import_file)` for source given as a
  string: extract the records, sort them by line, group adjacent records by
  heading, and yield the heading and body chunks, with the package copy's
  `first_import` flag deciding where the single imports section begins.
 */
module Docs2Md {
  import opened Wrappers
  import opened PyStr
  import opened PyAst
  import opened Records
  import opened Imports
  import opened Extract
  import opened Sorting
  import opened Grouping
  import opened Render

  /** Whether the walk meets an import statement. */
  ghost predicate WalkHasImport(walk: seq<Node>) {
    exists i :: 0 <= i < |walk| && walk[i].IsImport()
  }

  lemma {:induction false} ClassifiedImports(walk: seq<Node>)
    ensures (exists i :: 0 <= i < |Classified(walk)| && IsImportKind(Classified(walk)[i])) <==> WalkHasImport(walk)
    decreases |walk|
  {
    if walk != [] {
      ClassifiedImports(walk[1..]);
      var head := if walk[0].Other? then [] else [walk[0].Classify().value];
      var tail := Classified(walk[1..]);
      assert Classified(walk) == head + tail;
      if exists i :: 0 <= i < |Classified(walk)| && IsImportKind(Classified(walk)[i]) {
        var i :| 0 <= i < |Classified(walk)| && IsImportKind(Classified(walk)[i]);
        if i < |head| {
          assert walk[0].IsImport();
        } else {
          var k := i - |head|;
          assert tail[k] == Classified(walk)[i];
          assert 0 <= k < |Classified(walk[1..])| && IsImportKind(Classified(walk[1..])[k]);
          assert WalkHasImport(walk[1..]);
          var j :| 0 <= j < |walk[1..]| && walk[1..][j].IsImport();
          assert walk[j + 1] == walk[1..][j];
        }
      }
      if WalkHasImport(walk) {
        var j :| 0 <= j < |walk| && walk[j].IsImport();
        if j == 0 {
          assert Classified(walk)[0] == walk[0].Classify().value;
        } else {
          assert walk[1..][j - 1] == walk[j];
          assert WalkHasImport(walk[1..]);
          var i :| 0 <= i < |tail| && IsImportKind(tail[i]);
          assert Classified(walk)[|head| + i] == tail[i];
        }
      }
    }
  }

  lemma HasImportPermutation(a: seq<Record>, b: seq<Record>)
    requires multiset(a) == multiset(b)
    ensures HasImport(a) == HasImport(b)
  {
    HasImportExists(a);
    HasImportExists(b);
    if HasImport(a) {
      var i :| 0 <= i < |a| && IsImportKind(a[i].kind);
      assert a[i] in multiset(b);
      var j :| 0 <= j < |b| && b[j] == a[i];
    }
    if HasImport(b) {
      var i :| 0 <= i < |b| && IsImportKind(b[i].kind);
      assert b[i] in multiset(a);
      var j :| 0 <= j < |a| && a[j] == b[i];
    }
  }

  /** The chunks that `yield_docstrings` yields for the records of an extraction. */
  function Output(copy: Copy, records: seq<Record>, moduleName: string): seq<string> {
    Texts(Rendered(copy, SortByLine(records), moduleName))
  }

  lemma FlattenSnoc(runs: seq<Run>, g: nat)
    requires g < |runs|
    ensures Flatten(runs[..g + 1]) == Flatten(runs[..g]) + runs[g].records
    decreases g
  {
    if g == 0 {
      assert runs[..1][1..] == [];
    } else {
      assert runs[..g + 1][1..] == runs[1..][..g];
      assert runs[..g][1..] == runs[1..][..g - 1];
      FlattenSnoc(runs[1..], g - 1);
    }
  }

  /** Two chunks per record, and one section heading in the package copy when there is an import. */
  lemma OutputLengthOfRecords(copy: Copy, records: seq<Record>, moduleName: string)
    ensures |Output(copy, records, moduleName)| == 2 * |records| + ImportsOffset(copy, records)
  {
    var sorted := SortByLine(records);
    HasImportPermutation(sorted, records);
    RenderedLength(copy, sorted, moduleName);
    assert ImportsOffset(copy, sorted) == ImportsOffset(copy, records);
    assert |Output(copy, records, moduleName)| == |Rendered(copy, sorted, moduleName)|;
  }

  /** An extraction has one record per classified node, and an import record exactly when the walk has an import. */
  lemma ExtractionCounts(copy: Copy, source: string, walk: seq<Node>, lib: Library, sink: Option<seq<string>>)
    ensures var rs := ParseDocstrings(copy, source, walk, lib, sink).records;
      |rs| == |Classified(walk)| && (HasImport(rs) <==> WalkHasImport(walk))
  {
    var rs := ParseDocstrings(copy, source, walk, lib, sink).records;
    WalkKinds(copy, walk, SplitLines(source), lib, sink);
    KindsHasImport(rs);
    ClassifiedImports(walk);
  }

  /** A record sequence has an import exactly when its kinds include an import kind. */
  lemma KindsHasImport(rs: seq<Record>)
    ensures HasImport(rs) <==> exists i :: 0 <= i < |Kinds(rs)| && IsImportKind(Kinds(rs)[i])
  {
    var ks := Kinds(rs);
    HasImportExists(rs);
    if exists i :: 0 <= i < |ks| && IsImportKind(ks[i]) {
      var i :| 0 <= i < |ks| && IsImportKind(ks[i]);
      assert IsImportKind(rs[i].kind);
    }
    if HasImport(rs) {
      var i :| 0 <= i < |rs| && IsImportKind(rs[i].kind);
      assert IsImportKind(ks[i]);
    }
  }

  /**
    Two chunks per record, one record per classified node, and one section
    heading in the package copy exactly when the walk met an import.
   */
  lemma OutputLength(copy: Copy, source: string, walk: seq<Node>, moduleName: string, lib: Library, sink: Option<seq<string>>)
    ensures |Output(copy, ParseDocstrings(copy, source, walk, lib, sink).records, moduleName)|
      == 2 * |Classified(walk)| + (if copy.Package? && WalkHasImport(walk) then 1 else 0)
  {
    var rs := ParseDocstrings(copy, source, walk, lib, sink).records;
    ExtractionCounts(copy, source, walk, lib, sink);
    OutputLengthOfRecords(copy, rs, moduleName);
  }

  /**
    One step of the generator's inner loop: for a record whose run key is
    `key`, the generator's `first_import` test decides the section heading exactly as
    the reference rendering does, and the chunks it appends are the record's.
   */
  lemma GeneratorStep(copy: Copy, done: seq<Record>, r: Record, key: string, moduleName: string)
    requires key == Key(r)
    ensures OpensImports(copy, done, r)
      == (copy.Package? && !HasImport(done) && (key == Heading(ImportFromKind) || key == Heading(ImportKind)))
    ensures HasImport(done + [r]) == (HasImport(done) || key == Heading(ImportFromKind) || key == Heading(ImportKind))
    ensures Rendered(copy, done + [r], moduleName)
      == Rendered(copy, done, moduleName)
        + (if OpensImports(copy, done, r) then [ImportsSection] else [])
        + [RecordHeading(HeadingText(copy, key, DisplayName(r.name, moduleName), r.line))]
        + [RecordBody(BodyText(r.body))]
  {
    HeadingShared(r.kind, ImportKind);
    HeadingShared(r.kind, ImportFromKind);
    RenderedSnoc(copy, done, r, moduleName);
    var before := Rendered(copy, done, moduleName);
    var opt: seq<Chunk> := if OpensImports(copy, done, r) then [ImportsSection] else [];
    var h := RecordHeading(HeadingText(copy, key, DisplayName(r.name, moduleName), r.line));
    var b := RecordBody(BodyText(r.body));
    assert RecordChunks(copy, r, moduleName, OpensImports(copy, done, r)) == opt + [h, b];
    AppendPair(before, opt, h, b);
  }

  lemma AppendPair(a: seq<Chunk>, o: seq<Chunk>, x: Chunk, y: Chunk)
    ensures a + (o + [x, y]) == a + o + [x] + [y]
  {
    assert [x, y] == [x] + [y];
  }

  /** Taking one more record of `s` after `done` adds that record at the end. */
  lemma PrefixSnoc(done: seq<Record>, s: seq<Record>, j: nat)
    requires j < |s|
    ensures done + s[..j + 1] == (done + s[..j]) + [s[j]]
  {
    assert s[..j + 1] == s[..j] + [s[j]];
  }

  /**
    The generator's inner loop over one run of records sharing the heading
    `run.key`, continuing from the chunks yielded for the records `done` and
    the current `first_import` flag.
   */
  method EmitRun(copy: Copy, done: seq<Record>, run: Run, moduleName: string, chunks0: seq<Chunk>, firstImport0: bool)
    returns (chunks: seq<Chunk>, firstImport: bool)
    requires forall j :: 0 <= j < |run.records| ==> Key(run.records[j]) == run.key
    requires chunks0 == Rendered(copy, done, moduleName)
    requires firstImport0 == (copy.Script? || !HasImport(done))
    ensures chunks == Rendered(copy, done + run.records, moduleName)
    ensures firstImport == (copy.Script? || !HasImport(done + run.records))
  {
    chunks, firstImport := chunks0, firstImport0;
    ghost var seen := done;
    assert run.records[..0] == [];
    for j := 0 to |run.records|
      invariant seen == done + run.records[..j]
      invariant chunks == Rendered(copy, seen, moduleName)
      invariant firstImport == (copy.Script? || !HasImport(seen))
    {
      var r := run.records[j];
      GeneratorStep(copy, seen, r, run.key, moduleName);
      var name := DisplayName(r.name, moduleName);
      if copy.Package? && firstImport
        && (run.key == Heading(ImportFromKind) || run.key == Heading(ImportKind))
      {
        firstImport := false;
        chunks := chunks + [ImportsSection];
      }
      ghost var withSection := chunks;
      assert withSection == Rendered(copy, seen, moduleName) + (if OpensImports(copy, seen, r) then [ImportsSection] else []);
      chunks := chunks + [RecordHeading(HeadingText(copy, run.key, name, r.line))];
      chunks := chunks + [RecordBody(BodyText(r.body))];
      assert chunks == withSection + [RecordHeading(HeadingText(copy, run.key, name, r.line))] + [RecordBody(BodyText(r.body))];
      PrefixSnoc(done, run.records, j);
      seen := seen + [r];
    }
    assert run.records[..|run.records|] == run.records;
  }

  /**
    The generator loop of `yield_docstrings` over sorted records: it walks
    the `groupby` runs, dispatches on each run's key and keeps the
    `first_import` flag, and yields exactly the reference rendering.
   */
  method Generate(copy: Copy, sorted: seq<Record>, moduleName: string) returns (chunks: seq<Chunk>)
    ensures chunks == Rendered(copy, sorted, moduleName)
  {
    var runs := GroupBy(sorted);
    var firstImport := true;
    chunks := [];
    for g := 0 to |runs|
      invariant chunks == Rendered(copy, Flatten(runs[..g]), moduleName)
      invariant firstImport == (copy.Script? || !HasImport(Flatten(runs[..g])))
    {
      FlattenSnoc(runs, g);
      assert forall j :: 0 <= j < |runs[g].records| ==> Key(runs[g].records[j]) == runs[g].key;
      chunks, firstImport := EmitRun(copy, Flatten(runs[..g]), runs[g], moduleName, chunks, firstImport);
    }
    assert runs[..|runs|] == runs;
  }

  /**
    `yield_docstrings` on source text: it yields the reference rendering of
    the sorted records, two chunks per record plus, in the package copy, one
    section heading when the walk met an import; the sink receives what
    `parse_docstrings` wrote to it.
   */
  method YieldDocstrings(copy: Copy, source: string, walk: seq<Node>, moduleName: string, lib: Library, sink: Option<seq<string>>)
    returns (chunks: seq<string>, sinkAfter: Option<seq<string>>)
    ensures var e := ParseDocstrings(copy, source, walk, lib, sink);
      chunks == Output(copy, e.records, moduleName) && sinkAfter == e.sink
    ensures |chunks| == 2 * |Classified(walk)| + (if copy.Package? && WalkHasImport(walk) then 1 else 0)
  {
    var e := ParseDocstrings(copy, source, walk, lib, sink);
    sinkAfter := e.sink;
    var tagged := Generate(copy, SortByLine(e.records), moduleName);
    chunks := Texts(tagged);
    OutputLength(copy, source, walk, moduleName, lib, sink);
  }
}

=== FILE: extract.dfy ===
/**
  `parse_docstrings`: one pass over the walked nodes that yields a record for
  every module, class and function (with the anchor-line and signature rules
  of each copy of the tool) and, through `get_imports`, one for every import.
 */
module Extract {
  import opened Wrappers
  import opened PyStr
  import opened PyAst
  import opened Records
  import opened Imports

  /**
    Library collaborators taken as given: `inspect.cleandoc` (applied by
    `ast.get_docstring(clean=True)`) and `textwrap.dedent`.
   */
  datatype Library = Library(cleandoc: string -> string, dedent: string -> string)

  /**
    `ast.get_docstring(node, clean=True)`: present exactly when the first body
    statement is a string expression, and then that string, cleaned.
   */
  function Docstring(n: Node, lib: Library): (d: Option<string>)
    requires n.IsDeclaration()
    ensures d.Some? <==> n.FirstStatement().Some? && n.FirstStatement().value.stringValue.Some?
    ensures d.Some? ==> d.value == lib.cleandoc(n.FirstStatement().value.stringValue.value)
  {
    match n.FirstStatement()
    case Some(Stmt(_, Some(s))) => Some(lib.cleandoc(s))
    case _ => None
  }

  /** `ast.get_docstring(...) or '**UNDOCUMENTED**'`. */
  function DocText(n: Node, lib: Library): (t: string)
    requires n.IsDeclaration()
    ensures t != ""
    ensures Docstring(n, lib).Some? && Docstring(n, lib).value != "" ==> t == Docstring(n, lib).value
    ensures Docstring(n, lib).None? || Docstring(n, lib).value == "" ==> t == Undocumented
  {
    match Docstring(n, lib)
    case Some(d) => if d != "" then d else Undocumented
    case None => Undocumented
  }

  /** A string-expression statement whose value spans `|SplitLines(value)|` lines. */
  predicate StartsWithString(n: Node)
    requires n.IsDeclaration()
  {
    n.FirstStatement().Some? && n.FirstStatement().value.stringValue.Some?
  }

  /**
    The anchor line of a declaration record. The package copy anchors a
    function at its first body statement and anything else at its own line
    (0 for a module). The script copy anchors any declaration whose body
    starts with a string at that statement's line minus the number of lines
    of the string, and anything else at its own line.
   */
  function Anchor(copy: Copy, n: Node): int
    requires n.IsDeclaration()
  {
    match copy
    case Package =>
      if n.IsFunction() then n.first.line else n.DeclaredLine()
    case Script =>
      match n.FirstStatement()
      case Some(Stmt(l, Some(s))) => l - |SplitLines(s)|
      case _ => n.DeclaredLine()
  }

  /**
    The source lines quoted as a function's signature, for a function declared
    at `declLine` and anchored at `anchor`. When the two coincide, it is that
    one line; otherwise the package copy stops before the anchor line and the
    script copy includes it.
   */
  function SignatureLines(copy: Copy, declLine: int, anchor: int, lines: seq<string>): seq<string>
  {
    if declLine == anchor then PySlice(lines, anchor - 1, anchor)
    else match copy
      case Package => PySlice(lines, declLine - 1, anchor - 1)
      case Script => PySlice(lines, declLine - 1, anchor)
  }

  /** A fenced code block labelled `python`. */
  function FencedPython(code: string): string {
    "```python\n" + code + "\n```\n"
  }

  /** The record of one declaration node. */
  function DeclRecord(copy: Copy, n: Node, lines: seq<string>, lib: Library): (r: Record)
    requires n.IsDeclaration()
    ensures !IsImportKind(r.kind) && Some(r.kind) == n.Classify()
    ensures r.name.None? <==> n.Module?
    ensures !n.Module? ==> r.name == Some(n.name)
    ensures r.line == Anchor(copy, n)
    ensures !n.IsFunction() ==> r.body == DocText(n, lib)
    ensures n.IsFunction() ==>
      r.body == FencedPython(lib.dedent(Join(SignatureLines(copy, n.line, r.line, lines), "\n"))) + DocText(n, lib)
  {
    var anchor := Anchor(copy, n);
    var doc := DocText(n, lib);
    var body :=
      if n.IsFunction() then
        FencedPython(lib.dedent(Join(SignatureLines(copy, n.line, anchor, lines), "\n"))) + doc
      else doc;
    Record(n.Classify().value, n.DeclaredName(), anchor, body)
  }

  /** Records together with the sink contents after producing them. */
  datatype Extraction = Extraction(records: seq<Record>, sink: Option<seq<string>>)

  /** The records one walked node yields: its declaration record, then its import record. */
  function NodeRecords(copy: Copy, n: Node, lines: seq<string>, lib: Library, sink: Option<seq<string>>): Extraction
  {
    var decl := if n.IsDeclaration() then [DeclRecord(copy, n, lines, lib)] else [];
    var step := GetImports(n, sink);
    Extraction(decl + (if step.record.Some? then [step.record.value] else []), step.sink)
  }

  /** The loop of `parse_docstrings` over the walk, threading the sink through. */
  function WalkRecords(copy: Copy, walk: seq<Node>, lines: seq<string>, lib: Library, sink: Option<seq<string>>): Extraction
    decreases |walk|
  {
    if walk == [] then Extraction([], sink)
    else
      var head := NodeRecords(copy, walk[0], lines, lib, sink);
      var tail := WalkRecords(copy, walk[1..], lines, lib, head.sink);
      Extraction(head.records + tail.records, tail.sink)
  }

  /** `parse_docstrings(source, import_file)` for a walk of the tree parsed from `source`. */
  function ParseDocstrings(copy: Copy, source: string, walk: seq<Node>, lib: Library, sink: Option<seq<string>>): Extraction
  {
    WalkRecords(copy, walk, SplitLines(source), lib, sink)
  }

  // ---------------------------------------------------------------------------
  // Reference views of an extraction
  // ---------------------------------------------------------------------------

  /** The kinds of the walked nodes that have one, in walk order. */
  function Classified(walk: seq<Node>): seq<Kind>
    decreases |walk|
  {
    if walk == [] then []
    else (if walk[0].Other? then [] else [walk[0].Classify().value]) + Classified(walk[1..])
  }

  function Kinds(rs: seq<Record>): (ks: seq<Kind>)
    ensures |ks| == |rs| && forall i :: 0 <= i < |rs| ==> ks[i] == rs[i].kind
  {
    seq(|rs|, i requires 0 <= i < |rs| => rs[i].kind)
  }

  /** The declaration records among `rs`, in order. */
  function Declarations(rs: seq<Record>): seq<Record>
    decreases |rs|
  {
    if rs == [] then []
    else (if IsImportKind(rs[0].kind) then [] else [rs[0]]) + Declarations(rs[1..])
  }

  /** The import records among `rs`, in order. */
  function ImportRecords(rs: seq<Record>): seq<Record>
    decreases |rs|
  {
    if rs == [] then []
    else (if IsImportKind(rs[0].kind) then [rs[0]] else []) + ImportRecords(rs[1..])
  }

  /** One record per declaration node of the walk, in walk order. */
  function DeclarationsOfWalk(copy: Copy, walk: seq<Node>, lines: seq<string>, lib: Library): seq<Record>
    decreases |walk|
  {
    if walk == [] then []
    else
      (if walk[0].IsDeclaration() then [DeclRecord(copy, walk[0], lines, lib)] else [])
      + DeclarationsOfWalk(copy, walk[1..], lines, lib)
  }

  /** The record each import node of the walk yields, in walk order. */
  function ImportsOfWalk(walk: seq<Node>): seq<Record>
    decreases |walk|
  {
    if walk == [] then []
    else
      (if walk[0].IsImport() then [Record(walk[0].Classify().value, Some(ImportName(walk[0])), 0, "")] else [])
      + ImportsOfWalk(walk[1..])
  }

  /** The names of the import nodes of the walk, in walk order. */
  function ImportNamesOfWalk(walk: seq<Node>): seq<string>
    decreases |walk|
  {
    if walk == [] then []
    else (if walk[0].IsImport() then [ImportName(walk[0])] else []) + ImportNamesOfWalk(walk[1..])
  }

  function SinkLines(names: seq<string>): (ls: seq<string>)
    ensures |ls| == |names| && forall i :: 0 <= i < |names| ==> ls[i] == SinkLine(names[i])
  {
    seq(|names|, i requires 0 <= i < |names| => SinkLine(names[i]))
  }

  function Append(sink: Option<seq<string>>, more: seq<string>): Option<seq<string>> {
    if sink.Some? then Some(sink.value + more) else None
  }

  /**
    Concatenation regroups. Stated as its own lemma so that callers get the
    equation without the solver searching for it.
   */
  lemma AppendAssoc(a: seq<Record>, b: seq<Record>, c: seq<Record>)
    ensures a + (b + c) == (a + b) + c
  {
  }

  lemma DeclarationsAppend(a: seq<Record>, b: seq<Record>)
    ensures Declarations(a + b) == Declarations(a) + Declarations(b)
    decreases |a|
  {
    if a == [] {
      assert a + b == b;
    } else {
      var h: seq<Record> := if IsImportKind(a[0].kind) then [] else [a[0]];
      assert (a + b)[0] == a[0];
      assert (a + b)[1..] == a[1..] + b;
      DeclarationsAppend(a[1..], b);
      assert Declarations(a + b) == h + Declarations(a[1..] + b);
      assert Declarations(a) == h + Declarations(a[1..]);
      AppendAssoc(h, Declarations(a[1..]), Declarations(b));
    }
  }

  lemma ImportRecordsAppend(a: seq<Record>, b: seq<Record>)
    ensures ImportRecords(a + b) == ImportRecords(a) + ImportRecords(b)
    decreases |a|
  {
    if a == [] {
      assert a + b == b;
    } else {
      var h: seq<Record> := if IsImportKind(a[0].kind) then [a[0]] else [];
      assert (a + b)[0] == a[0];
      assert (a + b)[1..] == a[1..] + b;
      ImportRecordsAppend(a[1..], b);
      assert ImportRecords(a + b) == h + ImportRecords(a[1..] + b);
      assert ImportRecords(a) == h + ImportRecords(a[1..]);
      AppendAssoc(h, ImportRecords(a[1..]), ImportRecords(b));
    }
  }

  /**
    Every walked node that is a module, class, function, async function or
    import yields exactly one record of its own kind, any other node none,
    and the records come out in walk order.
   */
  lemma {:induction false} WalkKinds(
    copy: Copy, walk: seq<Node>, lines: seq<string>, lib: Library, sink: Option<seq<string>>)
    ensures Kinds(WalkRecords(copy, walk, lines, lib, sink).records) == Classified(walk)
    decreases |walk|
  {
    if walk != [] {
      var head := NodeRecords(copy, walk[0], lines, lib, sink);
      var tail := WalkRecords(copy, walk[1..], lines, lib, head.sink);
      WalkKinds(copy, walk[1..], lines, lib, head.sink);
      NodeKinds(copy, walk[0], lines, lib, sink);
      KindsAppend(head.records, tail.records);
    }
  }

  /**
    The kinds of two record sequences, one after the other. Stated as its own
    lemma so that callers get the equation without the solver searching for it.
   */
  lemma KindsAppend(a: seq<Record>, b: seq<Record>)
    ensures Kinds(a + b) == Kinds(a) + Kinds(b)
  {
  }

  /** A node yields a record of its own kind, or none when it has no kind. */
  lemma NodeKinds(copy: Copy, n: Node, lines: seq<string>, lib: Library, sink: Option<seq<string>>)
    ensures Kinds(NodeRecords(copy, n, lines, lib, sink).records) == (if n.Other? then [] else [n.Classify().value])
  {
    var rs := NodeRecords(copy, n, lines, lib, sink).records;
    if n.IsDeclaration() {
      assert rs == [DeclRecord(copy, n, lines, lib)];
    } else if n.IsImport() {
      assert rs == [GetImports(n, sink).record.value];
    } else {
      assert rs == [];
    }
  }

  /**
    The declaration records are exactly the declaration nodes' records, in
    walk order: imports interleave with them but do not disturb them.
   */
  lemma {:induction false} WalkDeclarations(
    copy: Copy, walk: seq<Node>, lines: seq<string>, lib: Library, sink: Option<seq<string>>)
    ensures Declarations(WalkRecords(copy, walk, lines, lib, sink).records)
      == DeclarationsOfWalk(copy, walk, lines, lib)
    decreases |walk|
  {
    if walk != [] {
      var head := NodeRecords(copy, walk[0], lines, lib, sink);
      var tail := WalkRecords(copy, walk[1..], lines, lib, head.sink);
      WalkDeclarations(copy, walk[1..], lines, lib, head.sink);
      DeclarationsAppend(head.records, tail.records);
      if walk[0].IsDeclaration() {
        assert head.records == [DeclRecord(copy, walk[0], lines, lib)];
      } else if walk[0].IsImport() {
        assert Declarations(head.records) == [];
      }
    }
  }

  /**
    The import records are exactly the import nodes' records, in walk order:
    each named after its import, on line 0, with an empty body.
   */
  lemma {:induction false} WalkImports(
    copy: Copy, walk: seq<Node>, lines: seq<string>, lib: Library, sink: Option<seq<string>>)
    ensures ImportRecords(WalkRecords(copy, walk, lines, lib, sink).records) == ImportsOfWalk(walk)
    decreases |walk|
  {
    if walk != [] {
      var head := NodeRecords(copy, walk[0], lines, lib, sink);
      var tail := WalkRecords(copy, walk[1..], lines, lib, head.sink);
      WalkImports(copy, walk[1..], lines, lib, head.sink);
      ImportRecordsAppend(head.records, tail.records);
      if walk[0].IsImport() {
        assert head.records == [GetImports(walk[0], sink).record.value];
      } else if walk[0].IsDeclaration() {
        assert head.records == [DeclRecord(copy, walk[0], lines, lib)];
      }
    }
  }

  /**
    Without a sink nothing is written; with one, exactly one line per import
    node is appended, in walk order, and nothing else.
   */
  lemma {:induction false} WalkSink(
    copy: Copy, walk: seq<Node>, lines: seq<string>, lib: Library, sink: Option<seq<string>>)
    ensures WalkRecords(copy, walk, lines, lib, sink).sink == Append(sink, SinkLines(ImportNamesOfWalk(walk)))
    decreases |walk|
  {
    if walk == [] {
      assert SinkLines([]) == [];
      if sink.Some? {
        assert sink.value + [] == sink.value;
      }
    } else {
      var head := NodeRecords(copy, walk[0], lines, lib, sink);
      WalkSink(copy, walk[1..], lines, lib, head.sink);
      var names := ImportNamesOfWalk(walk);
      var rest := ImportNamesOfWalk(walk[1..]);
      if walk[0].IsImport() {
        assert names == [ImportName(walk[0])] + rest;
        assert SinkLines(names) == [SinkLine(ImportName(walk[0]))] + SinkLines(rest);
        if sink.Some? {
          assert head.sink == Some(sink.value + [SinkLine(ImportName(walk[0]))]);
          assert sink.value + SinkLines(names) == sink.value + [SinkLine(ImportName(walk[0]))] + SinkLines(rest);
        }
      } else {
        assert names == rest;
      }
    }
  }

  // ---------------------------------------------------------------------------
  // Anchor and signature rules
  // ---------------------------------------------------------------------------

  /**
    The script copy places a declaration that starts with a string so that
    the string's lines follow the anchor: anchor plus line count is the
    string statement's line. The package copy keeps a class or module at its
    own line (0 for a module), docstring or not, and so agrees with the script
    copy on those only when there is no docstring.
   */
  lemma AnchorRules(n: Node)
    requires n.IsDeclaration()
    ensures StartsWithString(n) ==>
      Anchor(Script, n) + |SplitLines(n.FirstStatement().value.stringValue.value)| == n.FirstStatement().value.line
    ensures !StartsWithString(n) ==> Anchor(Script, n) == n.DeclaredLine()
    ensures !n.IsFunction() && !StartsWithString(n) ==> Anchor(Package, n) == Anchor(Script, n)
    ensures n.IsFunction() ==> Anchor(Package, n) == n.first.line
    ensures !n.IsFunction() ==> Anchor(Package, n) == n.DeclaredLine()
    ensures n.Module? ==> Anchor(Package, n) == 0
  {
  }

  /**
    The script copy's signature is always the slice from the declaration line
    through the anchor.
   */
  lemma ScriptSignatureUniform(declLine: int, anchor: int, lines: seq<string>)
    ensures SignatureLines(Script, declLine, anchor, lines) == PySlice(lines, declLine - 1, anchor)
  {
  }

  /**
    For an anchor inside the file and after the declaration line, the package
    copy quotes lines `declLine .. anchor - 1` (1-based), the whole header of a
    function whose first body statement is at the anchor.
   */
  lemma PackageSignatureIsHeader(declLine: int, anchor: int, lines: seq<string>)
    requires 1 <= declLine < anchor <= |lines| + 1
    ensures SignatureLines(Package, declLine, anchor, lines) == lines[declLine - 1 .. anchor - 1]
    ensures |SignatureLines(Package, declLine, anchor, lines)| == anchor - declLine
  {
  }

  /**
    Given the same anchor, the script copy quotes exactly one line more: the
    anchor line itself.
   */
  lemma ScriptSignatureOneMoreLine(declLine: int, anchor: int, lines: seq<string>)
    requires 1 <= declLine < anchor <= |lines|
    ensures SignatureLines(Script, declLine, anchor, lines)
      == SignatureLines(Package, declLine, anchor, lines) + [lines[anchor - 1]]
  {
    PySliceAdjacent(lines, declLine - 1, anchor - 1, anchor);
  }

  /**
    A negative anchor in the script copy (a long docstring close to the top of
    the file) is read as Python reads a negative index: counted from the end
    of the file, so the quoted signature runs on past the declaration's own
    header.
   */
  lemma ScriptNegativeAnchor(declLine: int, anchor: int, lines: seq<string>)
    requires 1 <= declLine && -|lines| <= anchor < 0
    requires declLine - 1 <= anchor + |lines|
    ensures SignatureLines(Script, declLine, anchor, lines) == lines[declLine - 1 .. anchor + |lines|]
  {
  }

  /**
    Both copies quote exactly a function's header: the source lines from the
    `def` line through `headerEnd`, the header's last line. Each copy gets
    there under the line numbering its doctests were written for. In the
    package copy the first body statement starts on the line after the
    header, or on the `def` line itself for a one-line function such as
    `def f(): return 1`, which quotes just that line. In the script copy the
    body starts with a docstring whose statement line is the string's last
    line, so the string fills the `|SplitLines(s)|` lines after the header.
   */
  lemma SignatureIsHeader(copy: Copy, n: Node, headerEnd: int, lines: seq<string>)
    requires n.IsFunction()
    requires 1 <= n.line <= headerEnd <= |lines|
    requires copy.Package? ==> n.first.line == headerEnd + 1 || n.first.line == n.line == headerEnd
    requires copy.Script? ==>
      n.first.stringValue.Some? && n.first.line == headerEnd + |SplitLines(n.first.stringValue.value)|
    ensures Anchor(copy, n) == if copy.Package? then n.first.line else headerEnd
    ensures SignatureLines(copy, n.line, Anchor(copy, n), lines) == lines[n.line - 1 .. headerEnd]
  {
    if copy.Package? {
      if n.first.line == headerEnd + 1 {
        PackageSignatureIsHeader(n.line, headerEnd + 1, lines);
      } else {
        assert PySlice(lines, headerEnd - 1, headerEnd) == lines[n.line - 1 .. headerEnd];
      }
    } else {
      ScriptSignatureUniform(n.line, headerEnd, lines);
      assert PySlice(lines, n.line - 1, headerEnd) == lines[n.line - 1 .. headerEnd];
    }
  }

  /**
    Under the same conditions, a function's record is its header in a fenced
    `python` block, dedented, followed by its docstring text.
   */
  lemma DeclRecordQuotesHeader(copy: Copy, n: Node, headerEnd: int, lines: seq<string>, lib: Library)
    requires n.IsFunction()
    requires 1 <= n.line <= headerEnd <= |lines|
    requires copy.Package? ==> n.first.line == headerEnd + 1 || n.first.line == n.line == headerEnd
    requires copy.Script? ==>
      n.first.stringValue.Some? && n.first.line == headerEnd + |SplitLines(n.first.stringValue.value)|
    ensures DeclRecord(copy, n, lines, lib).name == Some(n.name)
    ensures DeclRecord(copy, n, lines, lib).body
      == FencedPython(lib.dedent(Join(lines[n.line - 1 .. headerEnd], "\n"))) + DocText(n, lib)
  {
    SignatureIsHeader(copy, n, headerEnd, lines);
  }

  /**
    A one-line def followed by a one-line docstring: both copies quote just
    the def line, and the package copy reports the docstring's line where the
    script copy reports the def line.
   */
  lemma CopiesOnSimpleFunction(name: string, l: int, doc: string, lines: seq<string>, lib: Library)
    requires 1 <= l < |lines|
    requires doc != "" && NoLineBreak(doc)
    ensures var n := FunctionDef(name, l, Stmt(l + 1, Some(doc)));
      && DeclRecord(Package, n, lines, lib).line == l + 1
      && DeclRecord(Script, n, lines, lib).line == l
      && DeclRecord(Package, n, lines, lib).body == DeclRecord(Script, n, lines, lib).body
      && SignatureLines(Script, l, l, lines) == [lines[l - 1]]
      && SignatureLines(Package, l, l + 1, lines) == [lines[l - 1]]
  {
    assert SplitLines(doc) == [doc] by {
      assert LineEnd(doc) == |doc|;
    }
  }

  /**
    The walk of the documented example, for any one-line docstrings and any
    six-line docstring: the module, `here_is_cool` (declared on line 6, its
    docstring on lines 12 to 17), `sub_yo` (line 23,
    docstring on 24), `Blarg` (line 26, docstring on 27), `aze` (line 29,
    docstring on 30) and `undocumented_function` (line 34, `pass` on 35). The
    package copy, reading a string statement's first line, reports 0, 12,
    24, 26, 30 and 35; the script copy, reading its last line, reports 0,
    11, 23, 26, 29 and 34.
   */
  lemma DoctestAnchors(moduleDoc: string, subDoc: string, classDoc: string, azeDoc: string, doc: seq<string>)
    requires moduleDoc != "" && subDoc != "" && classDoc != "" && azeDoc != ""
    requires NoLineBreak(moduleDoc) && NoLineBreak(subDoc) && NoLineBreak(classDoc) && NoLineBreak(azeDoc)
    requires |doc| == 6 && doc[5] != "" && forall i :: 0 <= i < 6 ==> NoLineBreak(doc[i])
    ensures Anchor(Package, Module(Some(Stmt(1, Some(moduleDoc))))) == 0
    ensures Anchor(Script, Module(Some(Stmt(1, Some(moduleDoc))))) == 0
    ensures Anchor(Package, FunctionDef("here_is_cool", 6, Stmt(12, Some(Join(doc, "\n"))))) == 12
    ensures Anchor(Script, FunctionDef("here_is_cool", 6, Stmt(17, Some(Join(doc, "\n"))))) == 11
    ensures Anchor(Package, FunctionDef("sub_yo", 23, Stmt(24, Some(subDoc)))) == 24
    ensures Anchor(Script, FunctionDef("sub_yo", 23, Stmt(24, Some(subDoc)))) == 23
    ensures Anchor(Package, ClassDef("Blarg", 26, Stmt(27, Some(classDoc)))) == 26
    ensures Anchor(Script, ClassDef("Blarg", 26, Stmt(27, Some(classDoc)))) == 26
    ensures Anchor(Package, FunctionDef("aze", 29, Stmt(30, Some(azeDoc)))) == 30
    ensures Anchor(Script, FunctionDef("aze", 29, Stmt(30, Some(azeDoc)))) == 29
    ensures Anchor(Package, FunctionDef("undocumented_function", 34, Stmt(35, None))) == 35
    ensures Anchor(Script, FunctionDef("undocumented_function", 34, Stmt(35, None))) == 34
  {
    SplitLinesOfLine(moduleDoc, "");
    SplitLinesOfLine(subDoc, "");
    SplitLinesOfLine(classDoc, "");
    SplitLinesOfLine(azeDoc, "");
    JoinSplitLinesRoundTrip(doc);
  }
}

=== FILE: grouping.dfy ===
/**
  `itertools.groupby(sorted_records, key=heading)`: the sorted records cut into
  maximal runs of adjacent records that share a heading. It is not a partition
  by kind: a kind can come back in a later run, and both import kinds share
  one heading and so one run.
 */
module Grouping {
  import opened Wrappers
  import opened PyAst
  import opened Records

  /** One `(key, group)` pair of `groupby`. */
  datatype Run = Run(key: string, records: seq<Record>)

  /** The grouping key of a record: `_NODE_TYPES[type(node)]`. */
  function Key(r: Record): string {
    Heading(r.kind)
  }

  /** The runs' records, one run after the other. */
  function Flatten(runs: seq<Run>): seq<Record>
    decreases |runs|
  {
    if runs == [] then [] else runs[0].records + Flatten(runs[1..])
  }

  /** Each run is non-empty and every record in it has the run's key. */
  ghost predicate Homogeneous(runs: seq<Run>) {
    forall i, j :: 0 <= i < |runs| && 0 <= j < |runs[i].records| ==> Key(runs[i].records[j]) == runs[i].key
  }

  ghost predicate NonEmptyRuns(runs: seq<Run>) {
    forall i :: 0 <= i < |runs| ==> runs[i].records != []
  }

  /** No two neighbouring runs share a key, so no run could be extended. */
  ghost predicate Maximal(runs: seq<Run>) {
    forall i :: 0 < i < |runs| ==> runs[i - 1].key != runs[i].key
  }

  /** `runs` is a way of cutting `s` into maximal runs of equal keys. */
  ghost predicate RunsOf(runs: seq<Run>, s: seq<Record>) {
    Flatten(runs) == s && NonEmptyRuns(runs) && Homogeneous(runs) && Maximal(runs)
  }

  /** `groupby`: maximal runs of equal keys, in order. */
  function GroupBy(s: seq<Record>): (runs: seq<Run>)
    ensures RunsOf(runs, s)
    ensures s != [] ==> runs != [] && runs[0].key == Key(s[0])
    ensures |runs| <= |s|
    decreases |s|
  {
    if s == [] then []
    else
      var rest := GroupBy(s[1..]);
      assert s == [s[0]] + s[1..];
      if rest != [] && rest[0].key == Key(s[0]) then
        RunsOfJoin(s[0], rest, s[1..]);
        [Run(rest[0].key, [s[0]] + rest[0].records)] + rest[1..]
      else
        RunsOfFresh(s[0], rest, s[1..]);
        [Run(Key(s[0]), [s[0]])] + rest
  }

  /** A record with the first run's key joins that run. */
  lemma RunsOfJoin(x: Record, rest: seq<Run>, t: seq<Record>)
    requires RunsOf(rest, t) && rest != [] && rest[0].key == Key(x)
    ensures RunsOf([Run(rest[0].key, [x] + rest[0].records)] + rest[1..], [x] + t)
  {
    var runs := [Run(rest[0].key, [x] + rest[0].records)] + rest[1..];
    assert runs[1..] == rest[1..];
    assert Flatten(rest) == rest[0].records + Flatten(rest[1..]);
    assert Flatten(runs) == ([x] + rest[0].records) + Flatten(rest[1..]);
    forall i, j | 0 <= i < |runs| && 0 <= j < |runs[i].records|
      ensures Key(runs[i].records[j]) == runs[i].key
    {
      if i == 0 {
        if j > 0 {
          assert runs[0].records[j] == rest[0].records[j - 1];
        }
      } else {
        assert runs[i] == rest[i];
      }
    }
    forall i | 0 <= i < |runs| ensures runs[i].records != [] {
      if i > 0 {
        assert runs[i] == rest[i];
      }
    }
    forall i | 0 < i < |runs| ensures runs[i - 1].key != runs[i].key {
      assert runs[i] == rest[i];
      assert runs[i - 1].key == rest[i - 1].key;
    }
  }

  /** A record whose key differs from the first run's starts a run of its own. */
  lemma RunsOfFresh(x: Record, rest: seq<Run>, t: seq<Record>)
    requires RunsOf(rest, t) && (rest == [] || rest[0].key != Key(x))
    ensures RunsOf([Run(Key(x), [x])] + rest, [x] + t)
  {
    var runs := [Run(Key(x), [x])] + rest;
    assert runs[1..] == rest;
    assert Flatten(runs) == [x] + Flatten(rest);
    forall i, j | 0 <= i < |runs| && 0 <= j < |runs[i].records|
      ensures Key(runs[i].records[j]) == runs[i].key
    {
      if i > 0 {
        assert runs[i] == rest[i - 1];
      }
    }
    forall i | 0 <= i < |runs| ensures runs[i].records != [] {
      if i > 0 {
        assert runs[i] == rest[i - 1];
      }
    }
    forall i | 0 < i < |runs| ensures runs[i - 1].key != runs[i].key {
      assert runs[i] == rest[i - 1];
      if i > 1 {
        assert runs[i - 1] == rest[i - 2];
      }
    }
  }

  lemma FlattenCons(r: Run, runs: seq<Run>)
    ensures Flatten([r] + runs) == r.records + Flatten(runs)
  {
    assert ([r] + runs)[1..] == runs;
  }

  /**
    The maximal runs of a sequence are unique: whatever cuts `s` into
    non-empty, single-key, maximal runs is exactly what `GroupBy` returns.
   */
  lemma {:induction false} GroupByUnique(runs: seq<Run>, s: seq<Record>)
    requires RunsOf(runs, s)
    ensures runs == GroupBy(s)
    decreases |s|
  {
    if runs != [] {
      var first := runs[0];
      assert Flatten(runs) == first.records + Flatten(runs[1..]);
      assert s[0] == first.records[0];
      assert first.key == Key(s[0]);
      GroupByStep(s);
      if |first.records| == 1 {
        RunsOfTail(runs, s);
        GroupByUnique(runs[1..], s[1..]);
        if |runs| > 1 {
          assert runs[1].key != first.key;
        }
        assert first == Run(Key(s[0]), [s[0]]);
        assert runs == [first] + runs[1..];
      } else {
        var shorter := [Run(first.key, first.records[1..])] + runs[1..];
        RunsOfShorter(runs, s);
        GroupByUnique(shorter, s[1..]);
        assert shorter[1..] == runs[1..];
        assert first.records == [s[0]] + first.records[1..];
        assert runs == [Run(first.key, [s[0]] + first.records[1..])] + runs[1..];
      }
    }
  }

  /** One step of `GroupBy`: the first record joins the first run of the rest when the keys agree. */
  lemma GroupByStep(s: seq<Record>)
    requires s != []
    ensures var rest := GroupBy(s[1..]);
      GroupBy(s) == if rest != [] && rest[0].key == Key(s[0])
        then [Run(rest[0].key, [s[0]] + rest[0].records)] + rest[1..]
        else [Run(Key(s[0]), [s[0]])] + rest
  {
  }

  /** Dropping a first run of one record leaves the runs of the rest. */
  lemma RunsOfTail(runs: seq<Run>, s: seq<Record>)
    requires RunsOf(runs, s) && runs != [] && |runs[0].records| == 1
    ensures RunsOf(runs[1..], s[1..])
  {
    assert Flatten(runs) == runs[0].records + Flatten(runs[1..]);
    assert s[1..] == Flatten(runs[1..]);
    forall i | 0 < i < |runs[1..]| ensures runs[1..][i - 1].key != runs[1..][i].key {
      assert runs[1..][i - 1] == runs[i] && runs[1..][i] == runs[i + 1];
    }
  }

  /** Dropping the first record of a longer first run leaves the runs of the rest. */
  lemma RunsOfShorter(runs: seq<Run>, s: seq<Record>)
    requires RunsOf(runs, s) && runs != [] && |runs[0].records| > 1
    ensures RunsOf([Run(runs[0].key, runs[0].records[1..])] + runs[1..], s[1..])
  {
    var first := runs[0];
    var shorter := [Run(first.key, first.records[1..])] + runs[1..];
    assert Flatten(runs) == first.records + Flatten(runs[1..]);
    FlattenCons(Run(first.key, first.records[1..]), runs[1..]);
    assert first.records == [first.records[0]] + first.records[1..];
    assert Flatten(shorter) == s[1..];
    assert shorter[1..] == runs[1..];
    forall i, j | 0 <= i < |shorter| && 0 <= j < |shorter[i].records|
      ensures Key(shorter[i].records[j]) == shorter[i].key
    {
      if i == 0 {
        assert shorter[0].records[j] == first.records[j + 1];
      } else {
        assert shorter[i] == runs[i];
      }
    }
    forall i | 0 <= i < |shorter| ensures shorter[i].records != [] {
      if i > 0 {
        assert shorter[i] == runs[i];
      }
    }
    forall i | 0 < i < |shorter| ensures shorter[i - 1].key != shorter[i].key {
      assert shorter[i] == runs[i];
      if i > 1 {
        assert shorter[i - 1] == runs[i - 1];
      }
    }
  }

  /**
    With line numbers as inputs nothing keeps a kind in a single run: imports
    on line 0 on either side of a class on line 0 fall into two runs.
   */
  lemma ImportsCanSplit(a: Record, c: Record, b: Record)
    requires a.kind == ImportKind && b.kind == ImportFromKind && c.kind == ClassKind
    ensures |GroupBy([a, c, b])| == 3
    ensures GroupBy([a, c, b])[0] == Run("\nImports", [a])
    ensures GroupBy([a, c, b])[2] == Run("\nImports", [b])
  {
    HeadingValues();
    assert [a, c, b][1..] == [c, b];
    assert [c, b][1..] == [b];
    assert [b][1..] == [];
  }
}

=== FILE: imports.dfy ===
/**
  `get_imports`: the record an import statement contributes, and the line it
  appends to the optional import sink. The two copies of the tool agree here.
 */
module Imports {
  import opened Wrappers
  import opened PyStr
  import opened PyAst
  import opened Records

  /**
    The name an import is listed under: the module of a `from` import, or `?`
    when it has none (`from . import x`); for a plain import, the imported
    names joined by commas.
   */
  function ImportName(n: Node): string
    requires n.IsImport()
  {
    if n.ImportFrom? then
      (if n.fromModule.Some? && n.fromModule.value != "" then n.fromModule.value else "?")
    else Join(n.names, ",")
  }

  /** The line written to the import sink for one import: a tree branch, the name, a newline. */
  function SinkLine(name: string): string {
    "\U{251C}" + name + "\n"
  }

  /** What one call to `get_imports` yields, and the sink contents after it (`None`: no sink). */
  datatype ImportStep = ImportStep(record: Option<Record>, sink: Option<seq<string>>)

  /** `get_imports(node, file_to_save)`. */
  function GetImports(n: Node, sink: Option<seq<string>>): (r: ImportStep)
    ensures r.record.Some? <==> n.IsImport()
    ensures r.record.Some? ==>
      && IsImportKind(r.record.value.kind)
      && r.record.value.kind == n.Classify().value
      && r.record.value.name == Some(ImportName(n))
      && r.record.value.line == 0
      && r.record.value.body == ""
    ensures r.sink.Some? <==> sink.Some?
    ensures sink.Some? && r.record.None? ==> r.sink == sink
    ensures sink.Some? && r.record.Some? ==>
      r.sink == Some(sink.value + [SinkLine(r.record.value.name.value)])
  {
    if !n.IsImport() then ImportStep(None, sink)
    else
      var name := ImportName(n);
      var record := Record(n.Classify().value, Some(name), 0, "");
      ImportStep(Some(record), if sink.Some? then Some(sink.value + [SinkLine(name)]) else None)
  }

  /** A `from` import is listed as `?` exactly when its module is missing or empty (or is itself `?`). */
  lemma FromImportName(m: Option<string>)
    ensures ImportName(ImportFrom(m)) == "?" <==> m.None? || m.value == "" || m.value == "?"
    ensures m.Some? && m.value != "" ==> ImportName(ImportFrom(m)) == m.value
  {
  }

  /**
    The comma-joined name of a plain import loses nothing: splitting it on
    commas gives back the imported names, which never contain a comma.
   */
  lemma PlainImportNameSplits(names: seq<string>)
    requires |names| >= 1
    requires forall i :: 0 <= i < |names| ==> ',' !in names[i]
    ensures Split(ImportName(Import(names)), ',') == names
  {
    SplitJoinRoundTrip(names, ',');
  }

  /** The import lines of the `parse_docstrings` doctest. */
  lemma DoctestImports()
    ensures GetImports(ImportFrom(Some("whatever")), None).record
      == Some(Record(ImportFromKind, Some("whatever"), 0, ""))
    ensures GetImports(ImportFrom(Some("aze.aze.aze")), Some([])).record
      == Some(Record(ImportFromKind, Some("aze.aze.aze"), 0, ""))
    ensures GetImports(ImportFrom(Some("aze.aze.aze")), Some([])).sink
      == Some(["\U{251C}aze.aze.aze\n"])
    ensures GetImports(Import(["os"]), None).record
      == Some(Record(ImportKind, Some("os"), 0, ""))
    ensures GetImports(Import(["sys"]), Some(["\U{251C}os\n"])).record
      == Some(Record(ImportKind, Some("sys"), 0, ""))
    ensures GetImports(Import(["sys"]), Some(["\U{251C}os\n"])).sink
      == Some(["\U{251C}os\n", "\U{251C}sys\n"])
    ensures GetImports(Other, Some(["x"])) == ImportStep(None, Some(["x"]))
  {
    var aze := ImportFrom(Some("aze.aze.aze"));
    assert ImportName(aze) == "aze.aze.aze";
    assert SinkLine("aze.aze.aze") == "\U{251C}aze.aze.aze\n";
    var empty: seq<string> := [];
    assert GetImports(aze, Some(empty)).sink == Some(empty + [SinkLine("aze.aze.aze")]);
    assert empty + [SinkLine("aze.aze.aze")] == ["\U{251C}aze.aze.aze\n"];
    var os: seq<string> := ["\U{251C}os\n"];
    assert ImportName(Import(["sys"])) == "sys";
    assert GetImports(Import(["sys"]), Some(os)).sink == Some(os + [SinkLine("sys")]);
    assert SinkLine("sys") == "\U{251C}sys\n";
    assert os + [SinkLine("sys")] == ["\U{251C}os\n", "\U{251C}sys\n"];
  }
}

=== FILE: pyast.dfy ===
/**
  The part of a parsed Python module that the extractor reads: the nodes that
  `ast.walk` produces, reduced to their types, names, line numbers and first
  body statements. The parser and the walk themselves are not modelled; a walk
  is an input sequence of these nodes, in walk order.
 */
module PyAst {
  import opened Wrappers

  /** The node types that the extractor maps to a heading. */
  datatype Kind = ModuleKind | ClassKind | FunctionKind | AsyncFunctionKind | ImportFromKind | ImportKind

  /**
    A body statement: its line number and, when it is an expression statement
    whose value is a string literal, the value of that string.
   */
  datatype Stmt = Stmt(line: int, stringValue: Option<string>)

  /**
    One walked node. A module has no line number and may have an empty body;
    class and function bodies are never empty, so they carry their first
    statement. `fromModule` is `None` for `from . import x`.
   */
  datatype Node =
    | Module(body0: Option<Stmt>)
    | ClassDef(name: string, line: int, first: Stmt)
    | FunctionDef(name: string, line: int, first: Stmt)
    | AsyncFunctionDef(name: string, line: int, first: Stmt)
    | ImportFrom(fromModule: Option<string>)
    | Import(names: seq<string>)
    | Other
  {
    /** `type(node)` as a key of the heading tables, if it is one. */
    function Classify(): (k: Option<Kind>)
      ensures k.None? <==> Other?
    {
      match this
      case Module(_) => Some(ModuleKind)
      case ClassDef(_, _, _) => Some(ClassKind)
      case FunctionDef(_, _, _) => Some(FunctionKind)
      case AsyncFunctionDef(_, _, _) => Some(AsyncFunctionKind)
      case ImportFrom(_) => Some(ImportFromKind)
      case Import(_) => Some(ImportKind)
      case Other => None
    }

    /** Module, class, function or async function: a node with a docstring slot. */
    predicate IsDeclaration() {
      Module? || ClassDef? || FunctionDef? || AsyncFunctionDef?
    }

    predicate IsFunction() {
      FunctionDef? || AsyncFunctionDef?
    }

    predicate IsImport() {
      ImportFrom? || Import?
    }

    /** `node.body[0]` if the body is not empty. */
    function FirstStatement(): Option<Stmt>
      requires IsDeclaration()
    {
      if Module? then body0 else Some(first)
    }

    /** `getattr(node, 'lineno', 0)`: modules have no line number. */
    function DeclaredLine(): int
      requires IsDeclaration()
    {
      if Module? then 0 else line
    }

    /** `getattr(node, 'name', None)`. */
    function DeclaredName(): Option<string>
      requires IsDeclaration()
    {
      if Module? then None else Some(name)
    }
  }
}

=== FILE: pystr.dfy ===
/**
  The Python built-ins on strings and lists that the docstring extractor leans
  on: `str(int)`, `sep.join(parts)`, `str.splitlines()` and list slicing
  `xs[start:stop]`, each written out with its Python semantics.
 */
module PyStr {

  // ---------------------------------------------------------------------------
  // str(n) for an integer
  // ---------------------------------------------------------------------------

  predicate IsDigit(c: char) {
    '0' <= c <= '9'
  }

  /** The decimal digit character for `d`. */
  function Digit(d: nat): (c: char)
    requires d < 10
    ensures IsDigit(c) && c as int - '0' as int == d
  {
    ('0' as int + d) as char
  }

  /** `str(n)` for a non-negative `n`: decimal digits, no leading zero. */
  function NatToString(n: nat): (s: string)
    ensures |s| >= 1
    ensures forall i :: 0 <= i < |s| ==> IsDigit(s[i])
    ensures s[0] == '0' ==> n == 0
    decreases n
  {
    if n < 10 then [Digit(n)] else NatToString(n / 10) + [Digit(n % 10)]
  }

  /** `str(i)`: a minus sign before the digits of a negative number. */
  function IntToString(i: int): (s: string)
    ensures |s| >= 1
    ensures s[0] == '-' <==> i < 0
    ensures i < 0 ==> AllDigits(s[1..])
    ensures i >= 0 ==> AllDigits(s)
  {
    if i < 0 then "-" + NatToString(-i) else NatToString(i)
  }

  predicate AllDigits(s: string) {
    forall i :: 0 <= i < |s| ==> IsDigit(s[i])
  }

  /** The value of a run of decimal digits (`int(s)` on digits only). */
  function DigitsValue(s: string): nat
    requires AllDigits(s)
    decreases |s|
  {
    if s == [] then 0
    else DigitsValue(s[..|s| - 1]) * 10 + (s[|s| - 1] as int - '0' as int)
  }

  /** `int(s)` on what `str(int)` produces: an optional minus sign, then digits. */
  function ParseInt(s: string): int
    requires |s| >= 1
    requires s[0] == '-' ==> AllDigits(s[1..])
    requires s[0] != '-' ==> AllDigits(s)
  {
    if s[0] == '-' then -(DigitsValue(s[1..]) as int) else DigitsValue(s)
  }

  lemma {:induction false} NatToStringRoundTrip(n: nat)
    ensures DigitsValue(NatToString(n)) == n
    decreases n
  {
    if n >= 10 {
      var s := NatToString(n);
      assert s == NatToString(n / 10) + [Digit(n % 10)];
      assert s[..|s| - 1] == NatToString(n / 10);
      NatToStringRoundTrip(n / 10);
    }
  }

  /** Reading back what `str(i)` wrote gives `i`. */
  lemma IntToStringRoundTrip(i: int)
    ensures ParseInt(IntToString(i)) == i
  {
    if i < 0 {
      assert IntToString(i)[1..] == NatToString(-i);
      NatToStringRoundTrip(-i);
    } else {
      NatToStringRoundTrip(i);
    }
  }

  // ---------------------------------------------------------------------------
  // sep.join(parts) and its inverse for a one-character separator
  // ---------------------------------------------------------------------------

  /** `sep.join(parts)`. */
  function Join(parts: seq<string>, sep: string): string
    decreases |parts|
  {
    if |parts| == 0 then ""
    else if |parts| == 1 then parts[0]
    else parts[0] + sep + Join(parts[1..], sep)
  }

  /** `s.split(sep)` for a one-character separator. */
  function Split(s: string, sep: char): (parts: seq<string>)
    ensures |parts| >= 1
    ensures forall i :: 0 <= i < |parts| ==> sep !in parts[i]
    decreases |s|
  {
    if s == [] then [""]
    else
      var rest := Split(s[1..], sep);
      if s[0] == sep then [""] + rest
      else [[s[0]] + rest[0]] + rest[1..]
  }

  lemma {:induction false} SplitWithoutSeparator(s: string, sep: char)
    requires sep !in s
    ensures Split(s, sep) == [s]
    decreases |s|
  {
    if s != [] {
      assert sep !in s[1..];
      SplitWithoutSeparator(s[1..], sep);
      assert [s[0]] + s[1..] == s;
    }
  }

  lemma {:induction false} SplitAtFirstSeparator(a: string, sep: char, b: string)
    requires sep !in a
    ensures Split(a + [sep] + b, sep) == [a] + Split(b, sep)
    decreases |a|
  {
    var s := a + [sep] + b;
    if a == [] {
      assert s == [sep] + b;
      assert s[1..] == b;
    } else {
      assert s[1..] == a[1..] + [sep] + b;
      assert sep !in a[1..];
      SplitAtFirstSeparator(a[1..], sep, b);
      assert [a[0]] + a[1..] == a;
    }
  }

  /**
    Joining with a one-character separator that no part contains can be undone
    by splitting on it, as long as there is at least one part.
   */
  lemma {:induction false} SplitJoinRoundTrip(parts: seq<string>, sep: char)
    requires |parts| >= 1
    requires forall i :: 0 <= i < |parts| ==> sep !in parts[i]
    ensures Split(Join(parts, [sep]), sep) == parts
    decreases |parts|
  {
    if |parts| == 1 {
      SplitWithoutSeparator(parts[0], sep);
    } else {
      SplitJoinRoundTrip(parts[1..], sep);
      SplitAtFirstSeparator(parts[0], sep, Join(parts[1..], [sep]));
      assert [parts[0]] + parts[1..] == parts;
    }
  }

  // ---------------------------------------------------------------------------
  // str.splitlines()
  // ---------------------------------------------------------------------------

  /** The characters `str.splitlines` treats as line boundaries. */
  predicate IsLineBreak(c: char) {
    || c == '\n' || c == '\r'
    || c == '\U{0B}' || c == '\U{0C}'
    || c == '\U{1C}' || c == '\U{1D}' || c == '\U{1E}'
    || c == '\U{85}' || c == '\U{2028}' || c == '\U{2029}'
  }

  predicate NoLineBreak(s: string) {
    forall i :: 0 <= i < |s| ==> !IsLineBreak(s[i])
  }

  /** Index of the first line boundary of `s`, or `|s|` when there is none. */
  function LineEnd(s: string): (e: nat)
    ensures e <= |s|
    ensures NoLineBreak(s[..e])
    ensures e < |s| ==> IsLineBreak(s[e])
    decreases |s|
  {
    if s == [] then 0
    else if IsLineBreak(s[0]) then 0
    else
      var e := 1 + LineEnd(s[1..]);
      assert s[..e] == [s[0]] + s[1..][..e - 1];
      e
  }

  /** Width of the boundary at `i`: `\r\n` is one boundary of two characters. */
  function BreakWidth(s: string, i: nat): (w: nat)
    requires i < |s|
    ensures 1 <= w <= |s| - i
  {
    if s[i] == '\r' && i + 1 < |s| && s[i + 1] == '\n' then 2 else 1
  }

  /**
    `s.splitlines()`: the lines of `s` without their boundaries; a final
    boundary does not start an empty last line, and `""` has no lines.
   */
  function SplitLines(s: string): (lines: seq<string>)
    ensures forall i :: 0 <= i < |lines| ==> NoLineBreak(lines[i])
    ensures |lines| == 0 <==> s == ""
    ensures |lines| <= |s|
    decreases |s|
  {
    if s == "" then []
    else
      var e := LineEnd(s);
      if e == |s| then [s]
      else [s[..e]] + SplitLines(s[e + BreakWidth(s, e)..])
  }

  /** Only `\n` separates lines in `s`. */
  predicate OnlyNewlines(s: string) {
    forall i :: 0 <= i < |s| ==> IsLineBreak(s[i]) ==> s[i] == '\n'
  }

  function TrailingNewline(s: string): string {
    if |s| > 0 && s[|s| - 1] == '\n' then "\n" else ""
  }

  /** The first line of `s`, when `s` has a `\n` boundary, splits off cleanly. */
  lemma SplitLinesAtNewline(s: string, e: nat)
    requires e < |s| && e == LineEnd(s) && s[e] == '\n'
    ensures s == s[..e] + "\n" + s[e + 1..]
    ensures SplitLines(s) == [s[..e]] + SplitLines(s[e + 1..])
  {
    CutAt(s, e);
    assert BreakWidth(s, e) == 1;
    assert SplitLines(s) == [s[..e]] + SplitLines(s[e + BreakWidth(s, e)..]);
  }

  /**
    `s` is its part before `e`, the character at `e`, and its part after.
    Stated as its own lemma so that callers get the equation without the solver searching for it.
   */
  lemma CutAt(s: string, e: nat)
    requires e < |s|
    ensures s == s[..e] + [s[e]] + s[e + 1..]
  {
  }

  lemma OnlyNewlinesSuffix(s: string, k: nat)
    requires OnlyNewlines(s) && k <= |s|
    ensures OnlyNewlines(s[k..])
  {
    forall i | 0 <= i < |s| - k ensures IsLineBreak(s[k..][i]) ==> s[k..][i] == '\n' {
      assert s[k..][i] == s[k + i];
    }
  }

  /** A line without boundaries shifts the first boundary of what follows it. */
  lemma {:induction false} LineEndAfterLine(a: string, t: string)
    requires NoLineBreak(a)
    ensures LineEnd(a + t) == |a| + LineEnd(t)
    decreases |a|
  {
    if a == [] {
      assert a + t == t;
    } else {
      assert (a + t)[0] == a[0];
      assert (a + t)[1..] == a[1..] + t;
      LineEndAfterLine(a[1..], t);
    }
  }

  /**
    `(a + '\n' + b).splitlines()` is `a` followed by the lines of `b`, and a
    non-empty `a` alone is one line.
   */
  lemma SplitLinesOfLine(a: string, b: string)
    requires NoLineBreak(a)
    ensures SplitLines(a + "\n" + b) == [a] + SplitLines(b)
    ensures a != "" ==> SplitLines(a) == [a]
  {
    var s := a + "\n" + b;
    LineEndAfterLine(a, "\n" + b);
    assert LineEnd("\n" + b) == 0;
    assert s == a + ("\n" + b);
    assert LineEnd(s) == |a|;
    assert s[..|a|] == a && s[|a|] == '\n' && s[|a| + 1..] == b;
    SplitLinesAtNewline(s, |a|);
    SplitLinesOneLine(a);
  }

  /**
    Any single boundary character ends a line in the same way as `\n`, except
    a `\r` followed by `\n`, which is one boundary of two characters.
   */
  lemma SplitLinesAtBreak(a: string, c: char, b: string)
    requires NoLineBreak(a) && IsLineBreak(c)
    requires !(c == '\r' && b != [] && b[0] == '\n')
    ensures SplitLines(a + [c] + b) == [a] + SplitLines(b)
  {
    var s := a + [c] + b;
    LineEndAfterLine(a, [c] + b);
    assert LineEnd([c] + b) == 0;
    assert s == a + ([c] + b);
    assert LineEnd(s) == |a|;
    assert s[..|a|] == a && s[|a|] == c;
    if |a| + 1 < |s| {
      assert s[|a| + 1] == b[0];
    }
    assert BreakWidth(s, |a|) == 1;
    assert s[|a| + 1..] == b;
  }

  /** `\r\n` is a single boundary: it ends the line and starts no empty one. */
  lemma SplitLinesAtCrLf(a: string, b: string)
    requires NoLineBreak(a)
    ensures SplitLines(a + "\r\n" + b) == [a] + SplitLines(b)
  {
    var s := a + "\r\n" + b;
    LineEndAfterLine(a, "\r\n" + b);
    assert LineEnd("\r\n" + b) == 0;
    assert s == a + ("\r\n" + b);
    assert LineEnd(s) == |a|;
    assert s[..|a|] == a && s[|a|] == '\r' && s[|a| + 1] == '\n';
    assert BreakWidth(s, |a|) == 2;
    assert s[|a| + 2..] == b;
  }

  lemma SplitLinesOneLine(a: string)
    requires NoLineBreak(a)
    ensures a != "" ==> SplitLines(a) == [a]
  {
    LineEndAfterLine(a, "");
    assert a + "" == a;
  }

  /** Concatenation regroups. Stated as its own lemma so that callers get the equation without the solver searching for it. */
  lemma StringAssoc(a: string, b: string, c: string)
    ensures (a + b) + c == a + (b + c)
  {
  }

  /**
    The other way round: lines without boundaries, the last one non-empty,
    joined with `\n` split back into the same lines.
   */
  lemma {:induction false} JoinSplitLinesRoundTrip(ls: seq<string>)
    requires |ls| >= 1 && ls[|ls| - 1] != ""
    requires forall i :: 0 <= i < |ls| ==> NoLineBreak(ls[i])
    ensures SplitLines(Join(ls, "\n")) == ls
    decreases |ls|
  {
    if |ls| == 1 {
      SplitLinesOfLine(ls[0], "");
    } else {
      var tail := ls[1..];
      forall i | 0 <= i < |tail| ensures NoLineBreak(tail[i]) {
        assert tail[i] == ls[i + 1];
      }
      JoinSplitLinesRoundTrip(tail);
      JoinCons(ls[0], tail);
      SplitLinesOfLine(ls[0], Join(tail, "\n"));
      assert [ls[0]] + tail == ls;
    }
  }

  /**
    For text whose only boundaries are `\n`, `'\n'.join(s.splitlines())` gives
    `s` back, apart from a final newline.
   */
  lemma {:induction false} SplitLinesJoinRoundTrip(s: string)
    requires OnlyNewlines(s)
    ensures Join(SplitLines(s), "\n") + TrailingNewline(s) == s
    decreases |s|
  {
    if s != "" {
      var e := LineEnd(s);
      if e < |s| {
        var rest := s[e + 1..];
        SplitLinesAtNewline(s, e);
        OnlyNewlinesSuffix(s, e + 1);
        SplitLinesJoinRoundTrip(rest);
        JoinLinesStep(s[..e], rest);
      } else {
        assert s[..e] == s;
      }
    }
  }

  /** The round trip for `a + '\n' + rest` follows from the one for `rest`. */
  lemma JoinLinesStep(a: string, rest: string)
    requires Join(SplitLines(rest), "\n") + TrailingNewline(rest) == rest
    ensures Join([a] + SplitLines(rest), "\n") + TrailingNewline(a + "\n" + rest) == a + "\n" + rest
  {
    if rest == "" {
      assert [a] + SplitLines(rest) == [a];
      assert a + "\n" + rest == a + "\n";
    } else {
      JoinConsLine(a, SplitLines(rest), TrailingNewline(rest));
      assert TrailingNewline(a + "\n" + rest) == TrailingNewline(rest);
    }
  }

  /** Joining one more line in front puts it and a `\n` before the rest. */
  lemma JoinCons(a: string, ls: seq<string>)
    requires |ls| >= 1
    ensures Join([a] + ls, "\n") == a + "\n" + Join(ls, "\n")
  {
    assert ([a] + ls)[1..] == ls;
  }

  lemma JoinConsLine(a: string, ls: seq<string>, t: string)
    requires |ls| >= 1
    ensures Join([a] + ls, "\n") + t == a + "\n" + (Join(ls, "\n") + t)
  {
    JoinCons(a, ls);
    StringAssoc(a + "\n", Join(ls, "\n"), t);
  }

  // ---------------------------------------------------------------------------
  // xs[start:stop]
  // ---------------------------------------------------------------------------

  /**
    How a slice bound is normalised against a length `n`: a negative bound
    counts from the end, and the result is clamped to `[0, n]`.
   */
  function SliceBound(i: int, n: nat): (b: nat)
    ensures b <= n
    ensures 0 <= i <= n ==> b == i
    ensures i > n ==> b == n
    ensures -(n as int) <= i < 0 ==> b == i + n
    ensures i < -(n as int) ==> b == 0
  {
    if i < 0 then (if i + n < 0 then 0 else i + n)
    else if i > n then n
    else i
  }

  /** `xs[start:stop]` with Python's negative-index and clamping rules. */
  function PySlice<T>(xs: seq<T>, start: int, stop: int): (r: seq<T>)
    ensures |r| <= |xs|
    ensures var lo, hi := SliceBound(start, |xs|), SliceBound(stop, |xs|);
      |r| == (if lo <= hi then hi - lo else 0)
      && forall k :: 0 <= k < |r| ==> r[k] == xs[lo + k]
  {
    var lo, hi := SliceBound(start, |xs|), SliceBound(stop, |xs|);
    if lo <= hi then xs[lo..hi] else []
  }

  /** Two adjacent slices with non-negative bounds make up the slice spanning both. */
  lemma PySliceAdjacent<T>(xs: seq<T>, a: int, b: int, c: int)
    requires 0 <= a <= b <= c
    ensures PySlice(xs, a, b) + PySlice(xs, b, c) == PySlice(xs, a, c)
  {
    var n := |xs|;
    if b <= n && c <= n {
      assert xs[a..b] + xs[b..c] == xs[a..c];
    } else if b <= n {
      assert xs[a..b] + xs[b..n] == xs[a..n];
    }
  }

  /** A negative bound denotes the same position as that bound plus the length. */
  lemma PySliceNegativeStop<T>(xs: seq<T>, start: int, stop: int)
    requires -|xs| <= stop < 0
    ensures PySlice(xs, start, stop) == PySlice(xs, start, stop + |xs|)
  {
  }
}

=== FILE: records.dfy ===
/**
  Documentation records and the three heading tables that translate node
  types into markdown headings (`_FUNCTION_TYPES`, `_DECLARE_TYPES`,
  `_NODE_TYPES`); each table extends the previous one.
 */
module Records {
  import opened Wrappers
  import opened PyAst

  /**
    The two copies of the tool, which differ in anchor lines, signature
    slices and import rendering: the packaged module and the standalone script.
   */
  datatype Copy = Package | Script

  /** One extracted item: its node type, name (absent for a module), anchor line and text. */
  datatype Record = Record(kind: Kind, name: Option<string>, line: int, body: string)

  /** The text that stands in for a missing docstring. */
  const Undocumented: string := "**UNDOCUMENTED**"

  const FunctionTypes: map<Kind, string> :=
    map[FunctionKind := "\n### Function", AsyncFunctionKind := "\n### Async Function"]

  const DeclareTypes: map<Kind, string> :=
    FunctionTypes + map[ClassKind := "\n## Class", ModuleKind := "# Module"]

  const NodeTypes: map<Kind, string> :=
    DeclareTypes + map[ImportFromKind := "\nImports", ImportKind := "\nImports"]

  predicate IsImportKind(k: Kind) {
    k == ImportFromKind || k == ImportKind
  }

  /** Every kind has an entry in `_NODE_TYPES`; the declaration kinds in `_DECLARE_TYPES`. */
  lemma KindInTables(k: Kind)
    ensures k in NodeTypes
    ensures k in DeclareTypes <==> !IsImportKind(k)
    ensures k in FunctionTypes <==> k == FunctionKind || k == AsyncFunctionKind
  {
    match k
    case ModuleKind =>
    case ClassKind =>
    case FunctionKind =>
    case AsyncFunctionKind =>
    case ImportFromKind =>
    case ImportKind =>
  }

  /**
    `_NODE_TYPES[type(node)]`: the heading that is also the grouping key,
    spelled out per kind; `HeadingIsTableEntry` shows it is the table's entry.
   */
  function Heading(k: Kind): string
  {
    match k
    case ModuleKind => "# Module"
    case ClassKind => "\n## Class"
    case FunctionKind => "\n### Function"
    case AsyncFunctionKind => "\n### Async Function"
    case ImportFromKind => "\nImports"
    case ImportKind => "\nImports"
  }

  /** The heading of every kind is its `_NODE_TYPES` entry, and its `_DECLARE_TYPES` entry for a declaration. */
  lemma HeadingIsTableEntry(k: Kind)
    ensures k in NodeTypes && Heading(k) == NodeTypes[k]
    ensures !IsImportKind(k) ==> k in DeclareTypes && Heading(k) == DeclareTypes[k]
  {
    KindInTables(k);
  }

  /**
    The tables cover exactly the kinds they are meant to: functions, then
    declarations, then every kind; the declaration kinds are exactly the
    non-imports.
   */
  lemma TablesNest()
    ensures FunctionTypes.Keys == {FunctionKind, AsyncFunctionKind}
    ensures DeclareTypes.Keys == FunctionTypes.Keys + {ClassKind, ModuleKind}
    ensures forall k :: k in DeclareTypes ==> NodeTypes[k] == DeclareTypes[k]
    ensures forall k :: k in FunctionTypes ==> DeclareTypes[k] == FunctionTypes[k]
  {
  }

  /**
    Classifying a node agrees with the `isinstance` tests against the tables:
    a node is a declaration exactly when its type is a `_DECLARE_TYPES` key,
    a function exactly when it is a `_FUNCTION_TYPES` key, and an import
    exactly when its type is one of the two import kinds.
   */
  lemma ClassifyByTables(n: Node)
    ensures n.IsDeclaration() <==> n.Classify().Some? && n.Classify().value in DeclareTypes
    ensures n.IsFunction() <==> n.Classify().Some? && n.Classify().value in FunctionTypes
    ensures n.IsImport() <==> n.Classify().Some? && IsImportKind(n.Classify().value)
  {
    TablesNest();
  }

  /** The six headings, spelled out. */
  lemma HeadingValues()
    ensures Heading(ModuleKind) == "# Module"
    ensures Heading(ClassKind) == "\n## Class"
    ensures Heading(FunctionKind) == "\n### Function"
    ensures Heading(AsyncFunctionKind) == "\n### Async Function"
    ensures Heading(ImportFromKind) == "\nImports"
    ensures Heading(ImportKind) == "\nImports"
  {
  }

  /** Two kinds share a heading exactly when they are equal or both imports. */
  lemma HeadingShared(a: Kind, b: Kind)
    ensures Heading(a) == Heading(b) <==> a == b || (IsImportKind(a) && IsImportKind(b))
  {
    HeadingValues();
  }
}

=== FILE: render.dfy ===
/**
  The body of `yield_docstrings` after sorting and grouping: the chunks the
  generator yields, given here as a reference definition over the flat
  sequence of sorted records. Every record gives a heading chunk and a body
  chunk; the package copy also yields one `## Imports` section heading, just
  before its first import.
 */
module Render {
  import opened Wrappers
  import opened PyStr
  import opened PyAst
  import opened Records
  import opened Grouping

  /** A yielded chunk, tagged by the role it plays in the output. */
  datatype Chunk = ImportsSection | RecordHeading(text: string) | RecordBody(text: string)

  /** The string a chunk is yielded as. */
  function Yielded(c: Chunk): string {
    match c
    case ImportsSection => "## Imports\n"
    case RecordHeading(t) => t
    case RecordBody(t) => t
  }

  function Texts(cs: seq<Chunk>): (ts: seq<string>)
    ensures |ts| == |cs| && forall i :: 0 <= i < |cs| ==> ts[i] == Yielded(cs[i])
  {
    seq(|cs|, i requires 0 <= i < |cs| => Yielded(cs[i]))
  }

  /** `name if name else module`: a missing or empty name gives way to the module name. */
  function DisplayName(name: Option<string>, moduleName: string): (d: string)
    ensures name.Some? && name.value != "" ==> d == name.value
    ensures name.None? || name.value == "" ==> d == moduleName
  {
    if name.Some? && name.value != "" then name.value else moduleName
  }

  /** `{lineno or '?'}` inside an f-string. */
  function LineText(line: int): string {
    if line == 0 then "?" else IntToString(line)
  }

  /**
    The heading chunk for a record with grouping key `key`, dispatched on the
    key as the generator does.
   */
  function HeadingText(copy: Copy, key: string, name: string, line: int): string {
    if key == Heading(ModuleKind) then key + " '" + name + "'\n"
    else if key == Heading(ImportFromKind) || key == Heading(ImportKind) then
      (if copy.Package? then "* " + name else key + " '" + name + "'")
    else key + " '" + name + "'\nline " + LineText(line) + "\n\n"
  }

  /** `f"{docstring}\n" or '\n'`: the fallback never applies, the f-string is never empty. */
  function BodyText(body: string): (t: string)
    ensures t != "" && t[|t| - 1] == '\n'
    ensures t[..|t| - 1] == body
  {
    body + "\n"
  }

  /** The chunks of one record, led by the section heading when it opens the imports. */
  function RecordChunks(copy: Copy, r: Record, moduleName: string, opensImports: bool): seq<Chunk> {
    (if opensImports then [ImportsSection] else [])
    + [RecordHeading(HeadingText(copy, Key(r), DisplayName(r.name, moduleName), r.line)), RecordBody(BodyText(r.body))]
  }

  /** Whether some record of `rs` is an import. */
  function HasImport(rs: seq<Record>): bool
    decreases |rs|
  {
    rs != [] && (HasImport(rs[..|rs| - 1]) || IsImportKind(rs[|rs| - 1].kind))
  }

  /** The section heading goes before `r` when `r` is the package copy's first import. */
  function OpensImports(copy: Copy, before: seq<Record>, r: Record): bool {
    copy.Package? && IsImportKind(r.kind) && !HasImport(before)
  }

  /** The chunks yielded for the sorted records `rs`. */
  function Rendered(copy: Copy, rs: seq<Record>, moduleName: string): seq<Chunk>
    decreases |rs|
  {
    if rs == [] then []
    else
      var before := rs[..|rs| - 1];
      var r := rs[|rs| - 1];
      Rendered(copy, before, moduleName) + RecordChunks(copy, r, moduleName, OpensImports(copy, before, r))
  }

  /** One extra chunk in the package copy once there is an import. */
  function ImportsOffset(copy: Copy, rs: seq<Record>): nat {
    if copy.Package? && HasImport(rs) then 1 else 0
  }

  // ---------------------------------------------------------------------------
  // Facts about imports in a record sequence
  // ---------------------------------------------------------------------------

  lemma {:induction false} HasImportExists(rs: seq<Record>)
    ensures HasImport(rs) <==> exists i :: 0 <= i < |rs| && IsImportKind(rs[i].kind)
    decreases |rs|
  {
    if rs != [] {
      var before := rs[..|rs| - 1];
      HasImportExists(before);
      if HasImport(before) {
        var i :| 0 <= i < |before| && IsImportKind(before[i].kind);
        assert rs[i] == before[i];
      }
      if exists i :: 0 <= i < |rs| && IsImportKind(rs[i].kind) {
        var i :| 0 <= i < |rs| && IsImportKind(rs[i].kind);
        if i < |rs| - 1 {
          assert before[i] == rs[i];
        }
      }
    }
  }

  /** Index of the first import record. */
  function FirstImport(rs: seq<Record>): (f: nat)
    requires HasImport(rs)
    ensures f < |rs| && IsImportKind(rs[f].kind)
    ensures forall j :: 0 <= j < f ==> !IsImportKind(rs[j].kind)
    decreases |rs|
  {
    var before := rs[..|rs| - 1];
    if HasImport(before) then FirstImport(before)
    else
      HasImportExists(before);
      assert forall j :: 0 <= j < |before| ==> rs[j] == before[j];
      |rs| - 1
  }

  lemma HasImportPrefix(rs: seq<Record>, k: nat)
    requires k <= |rs|
    ensures HasImport(rs[..k]) <==> HasImport(rs) && FirstImport(rs) < k
  {
    HasImportExists(rs);
    HasImportExists(rs[..k]);
    if HasImport(rs[..k]) {
      var i :| 0 <= i < k && IsImportKind(rs[..k][i].kind);
      assert rs[i] == rs[..k][i];
    }
    if HasImport(rs) && FirstImport(rs) < k {
      assert rs[..k][FirstImport(rs)] == rs[FirstImport(rs)];
    }
  }

  // ---------------------------------------------------------------------------
  // Shape of the output
  // ---------------------------------------------------------------------------

  lemma RenderedSnoc(copy: Copy, rs: seq<Record>, r: Record, moduleName: string)
    ensures Rendered(copy, rs + [r], moduleName)
      == Rendered(copy, rs, moduleName) + RecordChunks(copy, r, moduleName, OpensImports(copy, rs, r))
    ensures HasImport(rs + [r]) == (HasImport(rs) || IsImportKind(r.kind))
  {
    assert (rs + [r])[..|rs|] == rs;
  }

  /**
    Two chunks per record, plus the one section heading in the package copy
    when some record is an import.
   */
  lemma {:induction false} RenderedLength(copy: Copy, rs: seq<Record>, moduleName: string)
    ensures |Rendered(copy, rs, moduleName)| == 2 * |rs| + ImportsOffset(copy, rs)
    decreases |rs|
  {
    if rs != [] {
      RenderedLength(copy, rs[..|rs| - 1], moduleName);
    }
  }

  lemma PrefixTrans(a: seq<Chunk>, b: seq<Chunk>, c: seq<Chunk>)
    requires a <= b && b <= c
    ensures a <= c
  {
    assert c[..|a|] == b[..|a|];
  }

  lemma PrefixIndex(a: seq<Chunk>, b: seq<Chunk>, p: nat)
    requires a <= b && p < |a|
    ensures b[p] == a[p]
  {
    assert b[..|a|] == a;
    assert b[..|a|][p] == b[p];
  }

  /** Rendering a prefix of the records yields a prefix of the chunks. */
  lemma {:induction false} RenderedPrefix(copy: Copy, rs: seq<Record>, k: nat, moduleName: string)
    requires k <= |rs|
    ensures Rendered(copy, rs[..k], moduleName) <= Rendered(copy, rs, moduleName)
    decreases |rs|
  {
    if k == |rs| {
      assert rs[..k] == rs;
    } else {
      var before := rs[..|rs| - 1];
      RenderedPrefix(copy, before, k, moduleName);
      assert before[..k] == rs[..k];
      assert Rendered(copy, before, moduleName) <= Rendered(copy, rs, moduleName);
      PrefixTrans(Rendered(copy, rs[..k], moduleName), Rendered(copy, before, moduleName), Rendered(copy, rs, moduleName));
    }
  }

  /** The last record's heading and body are the last two chunks. */
  lemma RenderedLast(copy: Copy, before: seq<Record>, r: Record, moduleName: string)
    ensures var out, p := Rendered(copy, before + [r], moduleName), 2 * |before| + ImportsOffset(copy, before + [r]);
      && p + 1 < |out|
      && out[p] == RecordHeading(HeadingText(copy, Key(r), DisplayName(r.name, moduleName), r.line))
      && out[p + 1] == RecordBody(BodyText(r.body))
  {
    RenderedSnoc(copy, before, r, moduleName);
    RenderedLength(copy, before, moduleName);
    var head := Rendered(copy, before, moduleName);
    var own := RecordChunks(copy, r, moduleName, OpensImports(copy, before, r));
    var p := 2 * |before| + ImportsOffset(copy, before + [r]);
    assert p == |head| + |own| - 2;
    assert (head + own)[p] == own[|own| - 2];
    assert (head + own)[p + 1] == own[|own| - 1];
  }

  /** Record `i`'s two chunks close the rendering of the records up to it. */
  lemma RenderedLayoutOfPrefix(copy: Copy, rs: seq<Record>, moduleName: string, i: nat)
    requires i < |rs|
    ensures var part, p := Rendered(copy, rs[..i + 1], moduleName), 2 * i + ImportsOffset(copy, rs[..i + 1]);
      && p + 1 < |part|
      && part[p] == RecordHeading(HeadingText(copy, Key(rs[i]), DisplayName(rs[i].name, moduleName), rs[i].line))
      && part[p + 1] == RecordBody(BodyText(rs[i].body))
  {
    assert rs[..i + 1] == rs[..i] + [rs[i]];
    RenderedLast(copy, rs[..i], rs[i], moduleName);
  }

  /**
    Where each record lands: the heading of record `i` sits at `2 * i`, moved
    one place on once the section heading has been yielded, and its body
    right after it.
   */
  lemma RenderedLayout(copy: Copy, rs: seq<Record>, moduleName: string, i: nat)
    requires i < |rs|
    ensures var out, p := Rendered(copy, rs, moduleName), 2 * i + ImportsOffset(copy, rs[..i + 1]);
      && p + 1 < |out|
      && out[p] == RecordHeading(HeadingText(copy, Key(rs[i]), DisplayName(rs[i].name, moduleName), rs[i].line))
      && out[p + 1] == RecordBody(BodyText(rs[i].body))
  {
    var p := 2 * i + ImportsOffset(copy, rs[..i + 1]);
    var part, out := Rendered(copy, rs[..i + 1], moduleName), Rendered(copy, rs, moduleName);
    RenderedLayoutOfPrefix(copy, rs, moduleName, i);
    RenderedPrefix(copy, rs, i + 1, moduleName);
    PrefixIndex(part, out, p);
    PrefixIndex(part, out, p + 1);
  }

  /**
    The section heading appears in exactly one place: in the package copy,
    if there is an import, right where the first import's heading would be,
    which follows it; nowhere otherwise.
   */
  lemma {:induction false} ImportsSectionPlacement(copy: Copy, rs: seq<Record>, moduleName: string, p: int)
    requires 0 <= p < |Rendered(copy, rs, moduleName)|
    ensures Rendered(copy, rs, moduleName)[p] == ImportsSection
      <==> copy.Package? && HasImport(rs) && p == 2 * FirstImport(rs)
    decreases |rs|
  {
    var before, r := rs[..|rs| - 1], rs[|rs| - 1];
    assert rs == before + [r];
    RenderedSnoc(copy, before, r, moduleName);
    RenderedLength(copy, before, moduleName);
    var head := Rendered(copy, before, moduleName);
    var own := RecordChunks(copy, r, moduleName, OpensImports(copy, before, r));
    if p < |head| {
      assert Rendered(copy, rs, moduleName)[p] == head[p];
      ImportsSectionPlacement(copy, before, moduleName, p);
      if HasImport(rs) && !HasImport(before) {
        assert FirstImport(rs) == |before|;
      }
    } else {
      assert Rendered(copy, rs, moduleName)[p] == own[p - |head|];
      if OpensImports(copy, before, r) {
        assert FirstImport(rs) == |before|;
      } else if copy.Package? && HasImport(rs) {
        assert FirstImport(rs) == FirstImport(before) < |before|;
      }
    }
  }

  /** Exactly one section heading in the package copy when there is an import, none otherwise. */
  lemma {:induction false} ImportsSectionCount(copy: Copy, rs: seq<Record>, moduleName: string)
    ensures multiset(Rendered(copy, rs, moduleName))[ImportsSection] == ImportsOffset(copy, rs)
    decreases |rs|
  {
    if rs != [] {
      ImportsSectionCount(copy, rs[..|rs| - 1], moduleName);
    }
  }

  /** The section heading is followed by the first import's bullet, `* name`. */
  lemma ImportsSectionThenBullet(rs: seq<Record>, moduleName: string)
    requires HasImport(rs)
    ensures var f := FirstImport(rs);
      && 2 * f + 1 < |Rendered(Package, rs, moduleName)|
      && Rendered(Package, rs, moduleName)[2 * f] == ImportsSection
      && Rendered(Package, rs, moduleName)[2 * f + 1] == RecordHeading("* " + DisplayName(rs[f].name, moduleName))
  {
    var f := FirstImport(rs);
    HasImportPrefix(rs, f + 1);
    assert ImportsOffset(Package, rs[..f + 1]) == 1;
    RenderedLayout(Package, rs, moduleName, f);
    HeadingsByKind(Package, rs[f], DisplayName(rs[f].name, moduleName));
    ImportsSectionPlacement(Package, rs, moduleName, 2 * f);
  }

  // ---------------------------------------------------------------------------
  // The markdown vocabulary
  // ---------------------------------------------------------------------------

  /** `lineno or '?'`: a question mark exactly for line 0, otherwise a number that reads back as the line. */
  lemma LineTextRoundTrip(line: int)
    ensures LineText(line) == "?" <==> line == 0
    ensures line != 0 ==> ParseInt(LineText(line)) == line
  {
    if line != 0 {
      IntToStringRoundTrip(line);
      assert IntToString(line)[0] != '?';
    }
  }

  /** The heading chunk of each kind of record. */
  lemma HeadingsByKind(copy: Copy, r: Record, name: string)
    ensures r.kind == ModuleKind ==> HeadingText(copy, Key(r), name, r.line) == "# Module '" + name + "'\n"
    ensures r.kind == ClassKind ==>
      HeadingText(copy, Key(r), name, r.line) == "\n## Class '" + name + "'\nline " + LineText(r.line) + "\n\n"
    ensures r.kind == FunctionKind ==>
      HeadingText(copy, Key(r), name, r.line) == "\n### Function '" + name + "'\nline " + LineText(r.line) + "\n\n"
    ensures r.kind == AsyncFunctionKind ==>
      HeadingText(copy, Key(r), name, r.line) == "\n### Async Function '" + name + "'\nline " + LineText(r.line) + "\n\n"
    ensures IsImportKind(r.kind) && copy.Package? ==> HeadingText(copy, Key(r), name, r.line) == "* " + name
    ensures IsImportKind(r.kind) && copy.Script? ==> HeadingText(copy, Key(r), name, r.line) == "\nImports '" + name + "'"
  {
    HeadingValues();
  }

  /** No record heading reads like the imports section heading. */
  lemma HeadingIsNotSection(copy: Copy, r: Record, name: string)
    ensures HeadingText(copy, Key(r), name, r.line) != Yielded(ImportsSection)
  {
    HeadingValues();
    var h := HeadingText(copy, Key(r), name, r.line);
    HeadingsByKind(copy, r, name);
    if r.kind == ModuleKind {
      assert h[1] == ' ';
    } else if IsImportKind(r.kind) && copy.Package? {
      assert h[0] == '*';
    } else {
      assert h[0] == '\n';
    }
  }
}

=== FILE: sorting.dfy ===
/**
  `sorted(records, key=lambda x: x[2])`: a stable sort on the line number
  alone. Records are not ordered by kind first; records on the same line keep
  the order in which the walk produced them.
 */
module Sorting {
  import opened Records

  ghost predicate SortedByLine(s: seq<Record>) {
    forall i, j :: 0 <= i < j < |s| ==> s[i].line <= s[j].line
  }

  /** The records of `s` on line `v`, in their order in `s`. */
  function OnLine(s: seq<Record>, v: int): seq<Record>
    decreases |s|
  {
    if s == [] then []
    else (if s[0].line == v then [s[0]] else []) + OnLine(s[1..], v)
  }

  /** Puts `r` into the sorted `s` ahead of every record whose line is not smaller. */
  function Insert(r: Record, s: seq<Record>): (t: seq<Record>)
    requires SortedByLine(s)
    ensures SortedByLine(t)
    ensures multiset(t) == multiset{r} + multiset(s)
    ensures |t| == |s| + 1 && (t[0] == r || (s != [] && t[0] == s[0]))
    decreases |s|
  {
    if s == [] || r.line <= s[0].line then [r] + s
    else
      SortedTail(s);
      var t := Insert(r, s[1..]);
      InsertBehind(r, s, t);
      [s[0]] + t
  }

  /** When `r` goes after the head of `s`, putting the head back in front keeps every property. */
  lemma InsertBehind(r: Record, s: seq<Record>, t: seq<Record>)
    requires SortedByLine(s) && s != [] && r.line > s[0].line
    requires SortedByLine(t) && multiset(t) == multiset{r} + multiset(s[1..])
    requires |t| == |s| && (t[0] == r || (s[1..] != [] && t[0] == s[1..][0]))
    ensures SortedByLine([s[0]] + t)
    ensures multiset([s[0]] + t) == multiset{r} + multiset(s)
    ensures |[s[0]] + t| == |s| + 1 && ([s[0]] + t)[0] == s[0]
  {
    SortedTail(s);
    assert s == [s[0]] + s[1..];
    assert multiset(s) == multiset{s[0]} + multiset(s[1..]);
    assert multiset([s[0]] + t) == multiset{s[0]} + multiset(t);
    SortedCons(s[0], t);
  }

  lemma SortedTail(s: seq<Record>)
    requires SortedByLine(s) && s != []
    ensures SortedByLine(s[1..]) && (|s| > 1 ==> s[0].line <= s[1].line)
  {
    forall i, j | 0 <= i < j < |s| - 1 ensures s[1..][i].line <= s[1..][j].line {
      assert s[1..][i] == s[i + 1] && s[1..][j] == s[j + 1];
    }
  }

  /** A record no later than the head of a sorted sequence can go in front of it. */
  lemma SortedCons(x: Record, t: seq<Record>)
    requires SortedByLine(t) && (t == [] || x.line <= t[0].line)
    ensures SortedByLine([x] + t)
  {
    forall i, j | 0 <= i < j < |[x] + t| ensures ([x] + t)[i].line <= ([x] + t)[j].line {
      if i > 0 {
        assert ([x] + t)[i] == t[i - 1];
      }
      if j > 1 {
        assert t[0].line <= t[j - 1].line;
      }
    }
  }

  /** Insertion sort from the back: the head goes in front of the sorted tail's equals. */
  function SortByLine(s: seq<Record>): (t: seq<Record>)
    ensures SortedByLine(t)
    ensures multiset(t) == multiset(s)
    ensures |t| == |s|
    decreases |s|
  {
    if s == [] then []
    else
      assert s == [s[0]] + s[1..];
      Insert(s[0], SortByLine(s[1..]))
  }

  lemma OnLineCons(x: Record, s: seq<Record>, v: int)
    ensures OnLine([x] + s, v) == (if x.line == v then [x] else []) + OnLine(s, v)
  {
    assert ([x] + s)[1..] == s;
  }

  lemma {:induction false} InsertOnLine(r: Record, s: seq<Record>, v: int)
    requires SortedByLine(s)
    ensures OnLine(Insert(r, s), v) == (if r.line == v then [r] else []) + OnLine(s, v)
    decreases |s|
  {
    if s == [] || r.line <= s[0].line {
      OnLineCons(r, s, v);
    } else {
      var t := Insert(r, s[1..]);
      assert Insert(r, s) == [s[0]] + t;
      assert SortedByLine(s[1..]) by {
        forall i, j | 0 <= i < j < |s[1..]| ensures s[1..][i].line <= s[1..][j].line {
          assert s[1..][i] == s[i + 1] && s[1..][j] == s[j + 1];
        }
      }
      InsertOnLine(r, s[1..], v);
      OnLineCons(s[0], t, v);
      assert s == [s[0]] + s[1..];
      OnLineCons(s[0], s[1..], v);
      var here: seq<Record> := if s[0].line == v then [s[0]] else [];
      var ins: seq<Record> := if r.line == v then [r] else [];
      var rest := OnLine(s[1..], v);
      assert here == [] || ins == [];
      assert OnLine(Insert(r, s), v) == here + (ins + rest);
      assert OnLine(s, v) == here + rest;
      if here == [] {
        assert here + (ins + rest) == ins + rest;
        assert here + rest == rest;
      } else {
        assert ins + rest == rest;
        assert ins + (here + rest) == here + rest;
      }
    }
  }

  /** Sorting keeps, for every line, the records on that line in their original order: it is stable. */
  lemma {:induction false} SortStable(s: seq<Record>, v: int)
    ensures OnLine(SortByLine(s), v) == OnLine(s, v)
    decreases |s|
  {
    if s != [] {
      SortStable(s[1..], v);
      InsertOnLine(s[0], SortByLine(s[1..]), v);
    }
  }

  lemma OnLineHead(s: seq<Record>)
    requires s != []
    ensures OnLine(s, s[0].line) != []
  {
  }

  lemma OnLineWitness(s: seq<Record>, v: int)
    requires OnLine(s, v) != []
    ensures exists i :: 0 <= i < |s| && s[i].line == v
    decreases |s|
  {
    if s[0].line != v {
      OnLineWitness(s[1..], v);
      var i :| 0 <= i < |s[1..]| && s[1..][i].line == v;
      assert s[i + 1].line == v;
    }
  }

  /** The first record of a sorted sequence is on its lowest line. */
  lemma SortedHeadIsLowest(a: seq<Record>, b: seq<Record>)
    requires SortedByLine(a) && a != [] && b != []
    requires OnLine(a, b[0].line) != []
    ensures a[0].line <= b[0].line
  {
    OnLineWitness(a, b[0].line);
  }

  /**
    A sorted sequence is determined by its records on each line: two sorted
    sequences that agree on every line's records are equal. So `SortByLine`
    is the one sorted rearrangement that keeps every line's order.
   */
  lemma {:induction false} SortedUnique(a: seq<Record>, b: seq<Record>)
    requires SortedByLine(a) && SortedByLine(b)
    requires forall v :: OnLine(a, v) == OnLine(b, v)
    ensures a == b
    decreases |a|
  {
    if a == [] && b != [] {
      OnLineHead(b);
      assert false;
    } else if a != [] && b == [] {
      OnLineHead(a);
      assert false;
    } else if a != [] && b != [] {
      assert OnLine(b, b[0].line) != [];
      SortedHeadIsLowest(a, b);
      assert OnLine(a, a[0].line) != [];
      SortedHeadIsLowest(b, a);
      var m := a[0].line;
      assert OnLine(a, m)[0] == a[0];
      assert OnLine(b, m)[0] == b[0];
      forall v ensures OnLine(a[1..], v) == OnLine(b[1..], v) {
        if v == m {
          assert OnLine(a[1..], v) == OnLine(a, v)[1..];
          assert OnLine(b[1..], v) == OnLine(b, v)[1..];
        } else {
          assert OnLine(a[1..], v) == OnLine(a, v);
          assert OnLine(b[1..], v) == OnLine(b, v);
        }
      }
      SortedUnique(a[1..], b[1..]);
      assert a == [a[0]] + a[1..];
      assert b == [b[0]] + b[1..];
    }
  }

  /** Any sorted sequence that keeps every line's records in order is the result of `SortByLine`. */
  lemma SortByLineCharacterised(s: seq<Record>, t: seq<Record>)
    requires SortedByLine(t)
    requires forall v :: OnLine(t, v) == OnLine(s, v)
    ensures t == SortByLine(s)
  {
    forall v ensures OnLine(SortByLine(s), v) == OnLine(t, v) {
      SortStable(s, v);
    }
    SortedUnique(SortByLine(s), t);
  }
}

=== FILE: wrappers.dfy ===
/** Optional values: Python's `None` next to a present value. */
module Wrappers {

  datatype Option<+T> = None | Some(value: T)
}
